=== FILE: README.md ===
# v2rayHelper, modelled in Dafny

v2rayHelper is a single Python script that installs, upgrades, removes and
purges the v2ray proxy on Linux, macOS, FreeBSD and OpenBSD. It picks an OS
handler class for the host and the release asset built for the host's
machine. It downloads the asset through a staging file and checks it against
the release's `metadata.txt`. Finally it runs one handler method, which
places the release and sets up the service. This project models that logic
and proves what it promises.

Modules, one per file:

- `Errors` (errors.dfy): `Option`, `Result`, and one `Error` constructor per
  kind of error the modelled code raises.
- `Text` (text.dfy): the Python string operations the script relies on, with
  Python's semantics: `str.find`, `str.split()`, `str.replace`, `str.lower`
  (ASCII) and `str.join`.
- `Platform` (platform.dfy):
  - `V2RayAPI._get_arch`;
  - `V2RayAPI.search`, as a function and as the loop the source writes;
  - the handler class tree and `_get_all_subclasses`;
  - `_get_os_handler`, as a function and as a loop.
- `Metadata` (metadata.dfy):
  - the line scanner of `_get_metadata`, as a step function, an independent
    section rule and the loop itself;
  - Python's `int()` on a size token;
  - `_validate_download`;
  - the rule by which `install` and `upgrade` skip validation on a
    `MetaFetchException`.
- `FileEdit` (fileedit.dfy): `FileHelper.contains`, `FileHelper.replace` and
  the rc.conf edit of `BSDHandler._auto_start_set`. A file is the class
  `TextFile`, whose field holds the file's lines, each with its newline, as
  Python reads them.
- `OsHelper` (oshelper.dfy):
  - `OSHelper.get_temp`, including its single left-to-right `//` pass;
  - `remove_if_exists`, on a file store that maps paths to contents.
- `Download` (downloader.dfy): the `Downloader` class, with the scrolling
  name of `_display_base_name` and the stage-then-rename transfer of `start`.
- `Handlers` (handlers.dfy):
  - the per-OS constants;
  - the permission rule of `_place_file`;
  - `install`, `upgrade`, `remove` and `purge` of every handler, each as the
    ordered list of effects it has on the host (downloads, deletions,
    links, commands) and the error it raises.
- `Lifecycle` (lifecycle.dfy): `V2rayHelper.run`, which chains handler
  selection, construction, the version query, the release lookup, the
  decision chain and the selected handler call.

Some behaviours of the code worth knowing:

- The SHA-1 comparison is exact string equality, not case-insensitive.
- The auto branch ignores `--force`: at the latest version it always raises
  AlreadyLatest.
- The staging file is `<path>.v2tmp`.
- Versions are compared as text.
- The constructor resets the scratch directory before any precondition of
  `run` is checked. Every refusal therefore leaves exactly that reset behind,
  and nothing else.

## Model

| member | source | states |
|---|---|---|
| Text.FindFrom | v2rayHelper.py:963 | `str.find` from index i: -1 exactly when the pattern occurs nowhere from i on; otherwise the lowest such index |
| Text.Contains | v2rayHelper.py:877 | true exactly when the pattern occurs at some index |
| Text.Split | v2rayHelper.py:67 | `str.split()` yields only non-empty tokens without whitespace; JoinSplit and SplitUnique tie the tokens to the text |
| Text.JoinSplit | v2rayHelper.py:67 | joining the tokens of a text with single spaces gives the text with every whitespace run collapsed to one space and both ends trimmed, defined character by character in Squeeze |
| Text.SplitUnique | v2rayHelper.py:67 | the tokens of a text are exactly the one list of non-empty, whitespace-free words whose single-space join is the collapsed text |
| Text.SplitJoin | v2rayHelper.py:67 | splitting tokens joined by a space gives back the tokens |
| Text.ReplaceAbsent | v2rayHelper.py:887 | `str.replace` leaves a string alone when the search string does not occur in it |
| Text.ReplaceSame | v2rayHelper.py:887 | replacing a string by itself changes nothing |
| Text.ReplaceAll | v2rayHelper.py:887 | `str.replace` keeps the length when the search and replacement texts have the same length, and never lengthens the text when the replacement is shorter; ReplaceAbsent and ReplaceSame are its other properties |
| Text.Join | v2rayHelper.py:755 | `sep.join`: empty for no tokens, and otherwise the first token is a prefix of the result; SplitJoin inverts it for space-free tokens |
| Text.Lower | v2rayHelper.py:951 | lower-casing keeps the length, maps each ASCII capital to its small letter and keeps every other character |
| Platform.AliasesDisjoint | v2rayHelper.py:942-947 | no machine name is listed under two keys of the table |
| Platform.LookupArch | v2rayHelper.py:950-954 | the scan over the table succeeds exactly when some key lists the name, and returns a key that lists it; otherwise UnsupportedPlatform |
| Platform.GetArch | v2rayHelper.py:941-954 | the result is key `a` exactly when the lower-cased name is in `a`'s list; UnsupportedPlatform exactly when no list holds it |
| Platform.FirstMatch | v2rayHelper.py:963-965 | the first index from i whose name contains the pattern; none exactly when no name from i on contains it |
| Platform.SelectAsset | v2rayHelper.py:956-966 | "" on darwin; otherwise the first asset, in list order, that contains `<os>-<arch>.zip`; UnsupportedPlatform for an unknown machine or when no asset matches |
| Platform.Search | v2rayHelper.py:956-966 | the loop with its early return computes SelectAsset |
| Platform.Walk | v2rayHelper.py:983-992 | `_get_all_subclasses` lists a concrete class before anything below it, and lists nothing for abstract classes without subclasses; WalkComplete states what it lists |
| Platform.WalkComplete | v2rayHelper.py:983-992 | the walk lists a kind exactly when a concrete class of that kind sits at or below the given classes |
| Platform.HandlerOrder | v2rayHelper.py:983-992 | the walk from OSHandler yields Linux, MacOS, FreeBSD, OpenBSD, Windows, in that order |
| Platform.TargetOs | v2rayHelper.py:390-391 | each handler class targets exactly one non-empty, all-lower-case OS name: `linux`, `darwin` (441-442), `freebsd` (530-531), `openbsd` (564-565), `windows` (611-612) |
| Platform.TargetsLowered | v2rayHelper.py:749 | every target equals its own lower-case form, so the lowered `platform.system()` can match it |
| Platform.EveryKindListed | v2rayHelper.py:983-992 | every concrete handler class is in the walk |
| Platform.FirstHandler | v2rayHelper.py:1014-1021 | the kind returned is in the list and targets the OS name; UnsupportedPlatform exactly when no kind targets it |
| Platform.TargetsDisjoint | v2rayHelper.py:390-391 | no OS name is targeted by two handler classes |
| Platform.FirstHandlerIsOnlyHandler | v2rayHelper.py:1012-1021 | the first match of the walk is the one kind whose target list holds the name |
| Platform.HandlerFor | v2rayHelper.py:1012-1021 | the handler is kind `k` exactly when `k` targets the OS name; otherwise UnsupportedPlatform |
| Platform.GetOsHandler | v2rayHelper.py:1012-1021 | the loop over the walked classes computes HandlerFor |
| Metadata.Step | v2rayHelper.py:66-78 | one turn of the loop only ever appends to the list, at most one value, and only the second token of a two-token line read inside the section |
| Metadata.Scan | v2rayHelper.py:66-78 | the scan collects fewer values than it read lines; ScanCollectsExpected states which |
| Metadata.Expected | v2rayHelper.py:66-78 | the section rule yields at most one value per line, each the second token of some two-token line |
| Metadata.StepHeader | v2rayHelper.py:76-78 | the line `File: <name>` opens the section |
| Metadata.StepValue | v2rayHelper.py:71-74 | inside the section, a two-token line appends its second token and advances the counter |
| Metadata.StepBlank | v2rayHelper.py:69-70 | a blank line resets the counter and keeps the values |
| Metadata.StepCounter | v2rayHelper.py:69-78 | after a step the counter is positive exactly when the line is the header, or the counter was positive and the line is not blank |
| Metadata.InSectionSnoc | v2rayHelper.py:66-78 | after one more line, the scan is inside the section exactly when that line is the header, or it was inside and the line is not blank |
| Metadata.ScanCounter | v2rayHelper.py:66-78 | the counter is positive exactly when a header was seen with no blank line after it |
| Metadata.ScanCollectsExpected | v2rayHelper.py:66-78 | the scanner collects exactly the second tokens of the two-token lines that follow a header with no blank line in between |
| Metadata.NoHeaderNoValues | v2rayHelper.py:66-83 | a document without a header for the file yields no values |
| Metadata.FetchMetadata | v2rayHelper.py:58-85 | MetadataUnreachable when the document cannot be fetched; MetadataNotFound when the section rule yields nothing; otherwise those values; every error is a MetaFetchException |
| Metadata.GetMetadata | v2rayHelper.py:58-85 | the loop with `s_counter` and the list computes FetchMetadata |
| Metadata.SplitPair | v2rayHelper.py:67 | a line of two words separated by a space splits into exactly those two words |
| Metadata.SectionExample | v2rayHelper.py:58-85 | a published section (header, size line, SHA-1 line, blank line) yields the size and the digest |
| Metadata.ParseInt | v2rayHelper.py:187 | `int()` succeeds exactly when the token, after an optional leading `+` or `-`, is one or more digits; a token of digits is its decimal value; a negative result needs a leading minus; ParseIntRoundTrip inverts `str` |
| Metadata.ParseIntSigned | v2rayHelper.py:187 | `int("-d")` is minus the value of the digits d and `int("+d")` is their value |
| Metadata.ParseIntRejects | v2rayHelper.py:187 | a token with any non-digit after its optional sign, such as "12a", is not an integer, so the NotAnInteger path is taken |
| Metadata.ParseIntRoundTrip | v2rayHelper.py:187 | `int(str(n)) == n` for every size n |
| Metadata.ValidateDownload | v2rayHelper.py:181-198 | passes exactly when there are at least two values, the first reads as the file size and the second equals the digest; empty metadata, a first value that is not an integer and a size mismatch each raise their own error, the size being checked before the digest; no error is a MetaFetchException |
| Metadata.CheckDownload | v2rayHelper.py:231-234 | Passed exactly when the metadata is fetched and validation passes; Skipped exactly when fetching the metadata raised a MetaFetchException; every other failure is raised |
| Metadata.PassedMeansMatch | v2rayHelper.py:181-198 | a passed validation saw the file's own size and digest in the metadata section |
| FileEdit.FileContains | v2rayHelper.py:874-880 | true exactly when some line contains the data |
| FileEdit.ApplyPairs | v2rayHelper.py:886-887 | the pairs applied in order keep the length of a line when each pair replaces a text by one of the same length; ApplyPairsAbsent is its other property |
| FileEdit.ApplyPairsAbsent | v2rayHelper.py:883-888 | a line holding no search string is written back unchanged |
| FileEdit.Replace | v2rayHelper.py:883-888 | the file keeps its number of lines, and each line becomes the old line with the pairs applied in order |
| FileEdit.AppendEnable | v2rayHelper.py:510-511 | appending adds two lines, or one when the last line has no newline, and the file then ends with the enable line after a terminated line; AppendEnableText states the text |
| FileEdit.AppendEnableText | v2rayHelper.py:510-511 | appending adds exactly a newline and `v2ray_enable="YES"` plus a newline at the end of the file's text |
| FileEdit.AutoStartLines | v2rayHelper.py:504-521 | enabling adds at most two lines and drops none; disabling only drops lines; EnableMarks, EnableIdempotent and DisableClears state the rest |
| FileEdit.AutoStartSet | v2rayHelper.py:504-521 | rc.conf becomes AutoStartLines of its old lines: enable appends unless a line holds the marker; disable drops the lines that hold it |
| FileEdit.EnableMarks | v2rayHelper.py:507-511 | after enabling, some line holds `v2ray_enable` |
| FileEdit.EnableIdempotent | v2rayHelper.py:507-511 | enabling twice is enabling once |
| FileEdit.Without | v2rayHelper.py:518-520 | the kept lines are at most as many as the old ones, and each is one of them; WithoutClears, WithoutCounts and WithoutConcat state which |
| FileEdit.WithoutClears | v2rayHelper.py:518-520 | no kept line holds the marker |
| FileEdit.WithoutCounts | v2rayHelper.py:518-520 | every line without the marker is kept as many times as it occurs; lines with it are dropped |
| FileEdit.WithoutConcat | v2rayHelper.py:518-520 | the filter works line by line, in order: it distributes over concatenation, and keeps a single line exactly when the line lacks the marker |
| FileEdit.WithoutNothing | v2rayHelper.py:518-520 | a file with no marker line is kept as it is |
| FileEdit.DisableClears | v2rayHelper.py:512-521 | after disabling, no line holds the marker, and every other line keeps its count |
| FileEdit.EnableThenDisable | v2rayHelper.py:504-521 | enabling then disabling a newline-terminated file without a marker leaves it with one extra empty line |
| OsHelper.CollapseSlashes | v2rayHelper.py:757-758 | the `//` pass leaves no `//` in a string without `///`, and keeps a leading slash without adding one |
| OsHelper.GetTemp | v2rayHelper.py:752-758 | the `//` pass never lengthens the formatted path; GetTempNoDoubleSlash and GetTempFile state its result |
| OsHelper.GetTempNoDoubleSlash | v2rayHelper.py:752-758 | a formatted path without `///` comes out of get_temp without `//` |
| OsHelper.CollapseConcat | v2rayHelper.py:758 | the pass works on the two sides of a boundary separately when no slash precedes it |
| OsHelper.GetTempFile | v2rayHelper.py:752-758 | for a clean scratch directory and slash-free names, `get_temp(base_dir, file=name)` is the three joined by single slashes |
| OsHelper.FileStore.RemoveIfExists | v2rayHelper.py:778-790 | for a file path, the path is gone afterwards, and removing an absent path is no error; nothing else changes |
| Download.NextOffset | v2rayHelper.py:675-683 | for a long name, the offset stays within `len - 25`; a short name leaves it unchanged |
| Download.Window | v2rayHelper.py:672-683 | a short name is shown whole; otherwise either the whole name or a 25-character slice starting at the offset |
| Download.Iterate | v2rayHelper.py:675-683 | after one call or more on a long name the offset stays within `len - 25`; a short name never moves it |
| Download.ScrollAdvances | v2rayHelper.py:676-678 | from offset 0 the window advances one character per call while it fits |
| Download.ScrollCycle | v2rayHelper.py:675-683 | after `len - 24` calls the whole name is shown and the offset is 0 again; until then each window is 25 characters |
| Download.Downloader.DisplayBaseName | v2rayHelper.py:672-683 | shows the window at the old offset, moves `_last_displayed` as NextOffset says, and keeps it within `len - 25` for a long name |
| Download.BaseName | v2rayHelper.py:686 | `os.path.basename`: a slash-free suffix of the path that starts just after its last slash |
| Download.StagingPath | v2rayHelper.py:691 | the staging path differs from the destination |
| Download.StartFiles | v2rayHelper.py:693-743 | the destination holds either its old contents or the complete download, never part of one; only the destination and the staging path change |
| Download.Downloader.Start | v2rayHelper.py:685-743 | the files become StartFiles of the old files for this downloader's path; a failed transfer raises UrlUnreachable; `start` itself returns None and its callers rebuild the path with `get_temp`, which the model returns instead |
| Handlers.PlacesFilesHaveDirs | v2rayHelper.py:394-399 | the handlers that place files are exactly those with a configuration directory and a base path |
| Handlers.ConfDir | v2rayHelper.py:394-395 | the Linux, FreeBSD and OpenBSD handlers have a configuration directory (`/etc/v2ray`, and `/usr/local/etc/v2ray` on FreeBSD, at 534-535 and 568-569) and macOS has none (`pass` at 433-434); it is a `v2ray` directory distinct from both release directories |
| Handlers.BasePath | v2rayHelper.py:398-399 | exactly the file-placing handlers link executables into a `bin` directory: `/usr/bin` on Linux, `/usr/local/bin` on the BSDs (524-525); none on macOS (437-438) |
| Handlers.UserPrefix | v2rayHelper.py:371-372 | the user commands get a prefix only on FreeBSD, where it is `pw ` (538-539), ending in the space that separates it from the command |
| Handlers.Mode | v2rayHelper.py:212-222 | corrected rule: the owner reads and writes; group and other read but never write; execute is set exactly for directories and the listed executables |
| Handlers.ModeDiffersOnExecutables | v2rayHelper.py:216-222 | the mode as written differs from the corrected one exactly on the listed executables |
| Handlers.ModeAsWritten | v2rayHelper.py:212-222 | as written: the owner reads and writes everything, group and other read it, and group and other may write exactly the listed executables |
| Handlers.ExecutablesWorldWritable | v2rayHelper.py:220-222 | as written, both listed executables can be written by the group and by every other user |
| Handlers.Service | v2rayHelper.py:413-415 | at most one command, which is a command exactly unless the host is Windows or a Linux without systemd |
| Handlers.ServiceNames | v2rayHelper.py:413-415 | the command `_service` runs on each handler carries the action and names the v2ray service |
| Handlers.AutoStart | v2rayHelper.py:405-409 | on the BSDs one rc.conf edit with the status; on Linux and macOS at most one service command |
| Handlers.AutoStartAction | v2rayHelper.py:405-409 | on Linux and macOS the auto-start command carries "enable" when enabling and "disable" when disabling |
| Handlers.ControlScript | v2rayHelper.py:417-423 | a control script is installed exactly for the handlers that place files, except on a Linux without systemd; on the BSDs only the pid directory follows it |
| Handlers.Links | v2rayHelper.py:247-254 | two effects per executable |
| Handlers.LinksPoint | v2rayHelper.py:247-254 | for each executable, the old link is deleted and then relinked to its file under /opt/v2ray/ |
| Handlers.LinksOfExecutables | v2rayHelper.py:247-254 | the four link effects for `v2ray` and `v2ctl` |
| Handlers.Instantiate | v2rayHelper.py:46-51 | construction always resets the scratch directory, and raises exactly for Windows and for macOS without Homebrew |
| Handlers.FetchAndValidate | v2rayHelper.py:226-234 | the download comes first; the step succeeds exactly when the asset is fetched and the check does not raise, and a MetaFetchException never escapes |
| Handlers.SetUp | v2rayHelper.py:246-287 | the set-up first relinks the two executables, then adds the user, and ends by starting the service when there is a service to start |
| Handlers.Install | v2rayHelper.py:224-244 | a failing install did nothing but the download, and only the handlers that place files can fail; those begin with the download; InstallPlacesOnlyValidated states when it places |
| Handlers.Upgrade | v2rayHelper.py:297-317 | the same for upgrade; UpgradePlacesOnlyValidated and UpgradeKeepsConfiguration state the rest |
| Handlers.Remove | v2rayHelper.py:323-345 | on the handlers that place files, remove ends by deleting the two links `which` finds and the two release directories, and does nothing only on Windows; RemoveDeletes states it deletes nothing else |
| Handlers.Purge | v2rayHelper.py:347-368 | as written, purge fails only unconfirmed, with no effect, or on macOS with PathIsNone; on Windows it does nothing; otherwise it removes and then runs PurgeRest, which includes the BSD overrides at 555-559 and 589-593 |
| Handlers.PurgeRest | v2rayHelper.py:358-368 | after `remove()`, purge only deletes: the configuration directory, the user with the handler's prefix, and the systemd unit; the pid directory is deleted exactly on FreeBSD |
| Handlers.PurgeUndoesControlScript | v2rayHelper.py:358-368 | every control script the set-up installs is deleted by purge, on every file-placing handler and either kind of Linux host |
| Handlers.PurgeFreeBSD | v2rayHelper.py:555-559 | a confirmed FreeBSD purge succeeds and ends by deleting `/usr/local/etc/rc.d/v2ray` and then `/var/run/v2ray/` |
| Handlers.PurgeOpenBSD | v2rayHelper.py:589-593 | a confirmed OpenBSD purge succeeds and ends by deleting `/etc/rc.d/v2ray`; the pid directory is never deleted |
| Handlers.PurgeIntended | v2rayHelper.py:492-497 | the corrected purge fails only when unconfirmed, and then does nothing |
| Handlers.PurgeGate | v2rayHelper.py:136-138 | an unconfirmed purge raises "--sure" required and has no effect; a confirmed one begins with remove |
| Handlers.RemoveDeletes | v2rayHelper.py:323-345 | remove deletes only the two release directories and the links that `which` finds |
| Handlers.PurgeDeletesConfiguration | v2rayHelper.py:347-368 | purge deletes the configuration directory and the user; remove deletes neither |
| Handlers.InstallPlacesOnlyValidated | v2rayHelper.py:224-244 | install places the release exactly when the download and the validation did not raise; with unfetchable metadata it skips validation and still places |
| Handlers.UpgradePlacesOnlyValidated | v2rayHelper.py:297-317 | the same for upgrade |
| Handlers.UpgradeKeepsConfiguration | v2rayHelper.py:297-321 | upgrade installs no config, creates no directory, and neither adds nor deletes the user |
| Handlers.SetUpConfig | v2rayHelper.py:263-285 | after placement, config.json is installed exactly when it is missing |
| Handlers.InstallConfigOnlyWhenMissing | v2rayHelper.py:263-285 | a successful install writes config.json exactly when none exists |
| Handlers.LinuxSetUp | v2rayHelper.py:246-287 | the ten steps after placement on a systemd Linux host without a config |
| Handlers.FetchPassed | v2rayHelper.py:226-234 | a fetched asset that passes validation leaves exactly the download and the verdict |
| Handlers.InstallPassed | v2rayHelper.py:224-287 | a validated install fetches, validates, extracts, deletes the archive and the old release, places the release, then sets up |
| Handlers.MacPurgeRaises | v2rayHelper.py:353-360 | as written, a confirmed macOS purge raises after removing the formula and never untaps |
| Handlers.PurgeIntendedCompletes | v2rayHelper.py:492-497 | the corrected purge succeeds on every handler but Windows, begins with remove, and on macOS removes and then untaps |
| Handlers.PurgeIntendedDiffersOnlyOnMac | v2rayHelper.py:492-497 | the corrected purge differs from the written one exactly on a confirmed macOS purge |
| Lifecycle.InstalledVersion | v2rayHelper.py:1003-1010 | nothing installed when the command fails; otherwise the second word of its output (`split()[1]`); VersionUnreadable exactly when the output has fewer than two words |
| Lifecycle.Decide | v2rayHelper.py:1046-1077 | as written, each call is selected only by its own flag: install by `--install` or by auto with nothing installed, upgrade only with something installed, by `--upgrade --force` or by auto on an older version, remove by `--remove`, purge by `--purge` with `--sure` as its confirmation; install and upgrade use the latest tag and the selected asset; DecideErrors states the refusals |
| Lifecycle.DecideIntended | v2rayHelper.py:1052-1062 | the corrected chain upgrades only an installed version that is older or forced, and never ends with no call |
| Lifecycle.DecideErrors | v2rayHelper.py:1046-1077 | each refusal of the chain, with both directions: install without force while installed; upgrade with nothing installed; remove without force with nothing installed; AlreadyLatest for plain upgrade or auto at the latest version; no other error |
| Lifecycle.AutoDispatch | v2rayHelper.py:1070-1077 | auto installs when nothing is installed, upgrades an older version and refuses the latest one |
| Lifecycle.UpgradeOnlyForced | v2rayHelper.py:1052-1062 | as written, `--upgrade` reaches the handler exactly when something is installed and `--force` is given |
| Lifecycle.UpgradeIsNoOp | v2rayHelper.py:1056-1060 | as written, plain `--upgrade` from v4.22.0 to v4.23.0 succeeds without calling the handler |
| Lifecycle.UpgradeIntended | v2rayHelper.py:1052-1062 | the corrected chain upgrades exactly when something is installed and it is older or `--force` is given, and never ends in a silent no-op |
| Lifecycle.IntendedDiffersOnlyThere | v2rayHelper.py:1046-1077 | the two chains differ exactly on a non-forced upgrade of an older version |
| Lifecycle.Resolve | v2rayHelper.py:1029-1031 | ApiUnreachable when the API cannot be reached; otherwise the latest tag with SelectAsset's answer |
| Lifecycle.Construct | v2rayHelper.py:1025-1031 | ready exactly when construction, the version query and the lookup all succeed; a failure leaves only the scratch reset |
| Lifecycle.Prepare | v2rayHelper.py:1023-1031 | an unknown OS name fails with UnsupportedPlatform before anything is done; once the handler is found, the scratch reset is all that was done before the decision chain |
| Lifecycle.Execute | v2rayHelper.py:1046-1077 | a failing install or upgrade leaves only the download; remove and no call never fail, and no call does nothing |
| Lifecycle.Conclude | v2rayHelper.py:1046-1077 | a refusal adds no effect to those of the construction; every outcome begins with the construction's effects |
| Lifecycle.Run | v2rayHelper.py:1023-1077 | as written: an unknown OS fails with UnsupportedPlatform and does nothing; once a handler is found, every run begins with the scratch reset |
| Lifecycle.RunIntended | v2rayHelper.py:1023-1077 | the same for the corrected chain and purge |
| Lifecycle.RefusalHasNoHandlerEffect | v2rayHelper.py:1046-1077 | every refusal of the chain leaves only the scratch reset |
| Lifecycle.EarlyFailureHasNoHandlerEffect | v2rayHelper.py:1025-1031 | a failure before the chain leaves at most the scratch reset |
| Lifecycle.ConcludeUnconfirmedPurge | v2rayHelper.py:1068-1069 | a purge without `--sure` adds no effect and raises "--sure" required |
| Lifecycle.PurgeNeedsSure | v2rayHelper.py:1068-1069 | a run with `--purge` and without `--sure` raises "--sure" required after only the scratch reset |
| Lifecycle.AutoInstalls | v2rayHelper.py:1071-1072 | auto with nothing installed runs the handler's install of the latest asset after the scratch reset |
| Lifecycle.AutoAtLatest | v2rayHelper.py:1074-1077 | auto at the latest version raises AlreadyLatest and downloads nothing |
| Lifecycle.UpgradeNeedsInstall | v2rayHelper.py:1052-1054 | upgrade with nothing installed raises before the downloader runs |
| Lifecycle.ConcludeFreshLinux | v2rayHelper.py:1071-1072 | auto on a fresh systemd Linux host fetches, validates, and ends by starting the service |
| Lifecycle.AutoOnFreshLinux | v2rayHelper.py:1023-1072 | the same for the whole run: the scratch reset, then the download of the selected asset, the passed validation, and last `systemctl start v2ray` |
| Lifecycle.ConcludeUpgradeOlder | v2rayHelper.py:1056-1060 | for a plain upgrade of an older version, the written chain does nothing and the corrected one runs the handler's upgrade |
| Lifecycle.UpgradeOlderRun | v2rayHelper.py:1056-1060 | the same for the whole run: as written, only the scratch reset, with no error |

## Left out

- Network access is not modelled. Its results are inputs instead:
  - the metadata document, or its absence;
  - the release tag and the asset names, or an unreachable API;
  - whether the asset transfer completes;
  - the downloads of the control scripts and of the default config.json,
    which the model treats as succeeding.
- The SHA-1 computation is left out: the digest and the file size are inputs.
- Zip extraction, `shutil.move`, `os.chmod`, `os.symlink` and directory
  creation are abstract effects. The permission rule is stated per entry,
  without walking a directory tree.
- `CommandHelper.execute` and subprocess failures are left out. Every
  command is assumed to succeed, so the CalledProcessError handlers in
  `remove` and in the macOS `upgrade` and `remove` are never taken.
- The internals of `add_user` and `delete_user` (the `pwd`/`grp` lookups and
  the command text) are not modelled; they appear as one effect each.
- Also not modelled:
  - the relaunch with root privileges through `os.execvp`, and the error it
    raises when neither sudo nor su exists;
  - `UnixLikeHelper.chown` and the error it raises when given neither a user
    nor a group;
  - the SIGINT handler and the `atexit` cleanup;
  - logging;
  - argparse. The arguments are given as a record, and `--auto` is always
    on, as its default makes it.
- Progress reporting (`_report_hook`, `_format_size`, `_format_time`, the
  terminal width) is left out; it uses floating point and the clock. Only
  the name window it displays is modelled.
- `get_ip` and the random uuid and port written into config.json are left
  out. The rewrite of config.json is represented only by the
  `InstallConfig` effect; `FileHelper.replace` itself is modelled in
  FileEdit.
- `urlparse` is not modelled: the downloader is given the URL's path.
- `tempfile.gettempdir()` is a parameter.
- OsHelper.FileStore.RemoveIfExists: the `isdir` branch that calls
  `shutil.rmtree` on a directory is not modelled; the file store holds files
  only, and the modelled code removes only the staging file through it.
- `int()` is modelled on ASCII digits with an optional sign; underscores,
  surrounding whitespace and non-ASCII digits are not.
- `str.lower` is modelled on ASCII letters only.
- The WindowsHandler methods after its raising constructor are stubs and are
  not modelled.
- Lifecycle.Run: runs the as-written chain and purge. Lifecycle.RunIntended
  runs the corrected ones. Only the findings' lemmas relate the two.

## Findings

| source | as written | input that shows it | evidently intended | confidence | as-written member | corrected member |
|---|---|---|---|---|---|---|
| v2rayHelper.py:1056-1060 | `handler.upgrade` is called only inside `if args.force`, so a plain `--upgrade` of an older version does nothing and reports no error | `--upgrade`, installed v4.22.0, latest v4.23.0 | upgrade whenever the installed version is older or `--force` is given | high, not executed | Lifecycle.UpgradeIsNoOp | Lifecycle.UpgradeIntended |
| v2rayHelper.py:220-222 | the listed executables get mode 0o777 while the log line says 755 | the file `v2ray` in the placed release | 0o755, as for directories | medium, not executed | Handlers.ExecutablesWorldWritable | Handlers.Mode |
| v2rayHelper.py:353-360 | the macOS purge runs `UnixLikeHandler.purge`, which passes `_get_conf_dir()` (None on macOS) to `remove_if_exists`; `os.path.exists(None)` raises TypeError | `--purge --sure` on macOS | remove the formula, then untap | medium, not executed | Handlers.MacPurgeRaises | Handlers.PurgeIntendedCompletes |

=== FILE: downloader.dfy ===
/**
  The `Downloader` class: the scrolling name shown in the progress line
  (`_display_base_name`) and the transfer that stages the file under a
  temporary name and renames it only when the transfer succeeded (`start`).
 */
module Download {
  import opened Errors
  import opened Text
  import opened OsHelper

  /** The width of the name column of the progress line. */
  const NameWidth: nat := 25

  /** The offset after one call of `_display_base_name` on a name of length `n`. */
  function NextOffset(n: nat, offset: nat): (r: nat)
    ensures n > NameWidth ==> r <= n - NameWidth
    ensures n <= NameWidth ==> r == offset
  {
    if n > NameWidth then
      if n - offset > NameWidth then offset + 1 else 0
    else offset
  }

  /** The name shown by one call of `_display_base_name` at offset `offset`. */
  function Window(name: string, offset: nat): (r: string)
    ensures |name| <= NameWidth ==> r == name
    ensures r == name || (offset + NameWidth < |name| && r == name[offset..offset + NameWidth])
  {
    if |name| > NameWidth && |name| - offset > NameWidth then name[offset..offset + NameWidth]
    else name
  }

  /** The offset after `k` calls on a name of length `n`, starting at `offset`. */
  function Iterate(n: nat, offset: nat, k: nat): (r: nat)
    ensures n <= NameWidth ==> r == offset
    ensures n > NameWidth && k > 0 ==> r <= n - NameWidth
  {
    if k == 0 then offset else NextOffset(n, Iterate(n, offset, k - 1))
  }

  /**
    A long name scrolls one character per call: after `k` calls from offset 0
    the window starts at `k`, as long as it still fits.
   */
  lemma {:induction false} ScrollAdvances(n: nat, k: nat)
    requires n > NameWidth && k <= n - NameWidth
    ensures Iterate(n, 0, k) == k
  {
    if k > 0 {
      ScrollAdvances(n, k - 1);
    }
  }

  /**
    The scroll is a cycle of `n - 24` calls: the call after the window reached
    the end of the name shows the whole name and resets the offset.
   */
  lemma ScrollCycle(name: string)
    requires |name| > NameWidth
    ensures Iterate(|name|, 0, |name| - NameWidth + 1) == 0
    ensures Window(name, Iterate(|name|, 0, |name| - NameWidth)) == name
    ensures forall k :: 0 <= k <= |name| - NameWidth - 1 ==> |Window(name, k)| == NameWidth
  {
    ScrollAdvances(|name|, |name| - NameWidth);
  }

  /** A downloader for one URL. */
  class Downloader {
    const url: string
    /** The path component of the URL. */
    const urlPath: string
    /** The file name under the scratch directory, or None to use the URL's base name. */
    const fileName: Option<string>
    /** `_last_displayed`: the offset of the scrolling name. */
    var lastDisplayed: nat

    constructor (url: string, urlPath: string, fileName: Option<string>)
      ensures this.url == url && this.urlPath == urlPath && this.fileName == fileName
      ensures lastDisplayed == 0
    {
      this.url := url;
      this.urlPath := urlPath;
      this.fileName := fileName;
      lastDisplayed := 0;
    }

    /**
      `_display_base_name`: a name of at most 25 characters is shown as it is;
      a longer one through a 25-character window that moves one character per
      call and starts over once it reaches the end.
     */
    method DisplayBaseName(baseName: string) returns (shown: string)
      modifies this`lastDisplayed
      ensures shown == Window(baseName, old(lastDisplayed))
      ensures lastDisplayed == NextOffset(|baseName|, old(lastDisplayed))
      ensures |baseName| > NameWidth ==> lastDisplayed <= |baseName| - NameWidth
    {
      var nameLen := |baseName|;
      if nameLen > 25 {
        if nameLen - lastDisplayed > 25 {
          lastDisplayed := lastDisplayed + 1;
          return baseName[lastDisplayed - 1..lastDisplayed + 24];
        } else {
          lastDisplayed := 0;
          return baseName;
        }
      } else {
        return baseName;
      }
    }

    /** The name the file is stored under. */
    function TargetName(): string
      reads this
    {
      match fileName
      case Some(name) => name
      case None => BaseName(urlPath)
    }

    /**
      `start`: the stale temporary file is removed, the transfer writes the
      temporary file, and only a completed transfer is renamed onto the
      destination; a failed one raises and leaves the destination alone.
     */
    method Start(fs: FileStore, tempDir: string, transfer: Transfer) returns (r: Result<string>)
      modifies fs
      ensures var path := GetTemp(tempDir, ScratchName, None, TargetName());
        && fs.files == StartFiles(old(fs.files), path, StagingPath(path), transfer)
        && (transfer.Completed? ==> r == Ok(path))
        && (!transfer.Completed? ==> r == Err(UrlUnreachable(url)))
    {
      var path := GetTemp(tempDir, ScratchName, None, TargetName());
      var tempPath := StagingPath(path);
      fs.RemoveIfExists(tempPath);
      match transfer {
        case Refused =>
          return Err(UrlUnreachable(url));
        case Interrupted(partial) =>
          fs.files := fs.files[tempPath := partial];
          return Err(UrlUnreachable(url));
        case Completed(data) =>
          fs.files := fs.files[tempPath := data];
          var staged := fs.files[tempPath];
          fs.files := (fs.files - {tempPath})[path := staged];
          return Ok(path);
      }
    }
  }

  /** `os.path.basename`: the text after the last slash. */
  function BaseName(p: string): (r: string)
    ensures '/' !in r
    ensures |r| <= |p| && r == p[|p| - |r|..]
    ensures |r| < |p| ==> p[|p| - |r| - 1] == '/'
  {
    if p == [] || p[|p| - 1] == '/' then []
    else BaseName(p[..|p| - 1]) + [p[|p| - 1]]
  }

  /** `'{}.{}'.format(path, 'v2tmp')`: where the transfer writes. */
  function StagingPath(path: string): (t: string)
    ensures t != path
  {
    path + ".v2tmp"
  }

  /** What `urlretrieve` did. */
  datatype Transfer =
    // the whole resource was written
    | Completed(data: Bytes)
    // URLError before any byte was written
    | Refused
    // URLError after `partial` was written (ContentTooShortError)
    | Interrupted(partial: Bytes)

  /**
    The files after `start`: the destination either keeps what it had or holds
    the complete download, never a part of it; only the destination and the
    temporary path change.
   */
  function StartFiles(files: map<string, Bytes>, path: string, tempPath: string, transfer: Transfer): (r: map<string, Bytes>)
    requires tempPath != path
    ensures path in r <==> path in files || transfer.Completed?
    ensures path in r ==> r[path] == if transfer.Completed? then transfer.data else files[path]
    ensures transfer.Completed? || transfer.Refused? ==> tempPath !in r
    ensures transfer.Interrupted? ==> tempPath in r && r[tempPath] == transfer.partial
    ensures forall p :: p != path && p != tempPath ==> (p in r <==> p in files) && (p in r ==> r[p] == files[p])
  {
    var cleared := files - {tempPath};
    match transfer
    case Refused => cleared
    case Interrupted(partial) => cleared[tempPath := partial]
    case Completed(data) => (cleared[tempPath := data] - {tempPath})[path := data]
  }
}

=== FILE: errors.dfy ===
/**
  The outcomes of the helper's operations: an optional value, and a result that
  is either a value or one of the errors the helper raises.

  The helper raises `V2rayHelperException` with a message, its subclasses
  `UnsupportedPlatformException` and `MetaFetchException`, and lets three Python
  built-in errors escape: from `int()`, from list indexing and from
  `os.path.exists(None)`. Each kind of error the modelled code raises becomes
  one constructor of `Error`; the raises of the root relaunch and of
  `UnixLikeHelper.chown` lie outside the model.
 */
module Errors {

  datatype Option<T> = None | Some(value: T)

  datatype Error =
    // UnsupportedPlatformException: unknown OS, unknown machine, no matching asset,
    // or the Windows handler
    | UnsupportedPlatform
    // MetaFetchException: metadata.txt could not be fetched
    | MetadataUnreachable
    // MetaFetchException: metadata.txt has no values for the file
    | MetadataNotFound(fileName: string)
    // V2rayHelperException raised by V2RayAPI.fetch
    | ApiUnreachable
    // V2rayHelperException raised by Downloader.start
    | UrlUnreachable(url: string)
    // V2rayHelperException raised by the decision chain of V2rayHelper.run
    | AlreadyInstalled
    | NotInstalledForUpgrade
    | AlreadyLatest
    | NotInstalledForRemove
    // V2rayHelperException raised by OSHandler.purge: "--sure" is required
    | SureRequired
    // V2rayHelperException raised by _validate_download
    | InvalidMetadata
    | SizeMismatch(expectedSize: int, actualSize: nat)
    | Sha1Mismatch(expectedSha1: string, actualSha1: string)
    // ValueError escaping from int(metadata[0])
    | NotAnInteger(text: string)
    // IndexError escaping from metadata[1]
    | MissingSha1
    // V2rayHelperException raised by MacOSHandler._post_init: Homebrew is required
    | HomebrewRequired
    // IndexError escaping from the version query when `v2ray --version` prints fewer than two words
    | VersionUnreadable
    // TypeError escaping from os.path.exists when the macOS purge deletes its configuration
    // directory, which `_get_conf_dir` gives as None
    | PathIsNone

  datatype Result<T> = Ok(value: T) | Err(error: Error)

  /** The errors that are instances of MetaFetchException. */
  predicate IsMetaFetch(e: Error) {
    e.MetadataUnreachable? || e.MetadataNotFound?
  }
}

=== FILE: fileedit.dfy ===
/**
  Line-oriented edits of text files: `FileHelper.contains`,
  `FileHelper.replace` and the rc.conf edit of `BSDHandler._auto_start_set`.

  A file is the list of its lines as Python reads them: every line but the
  last ends with a newline, which is part of the line.
 */
module FileEdit {
  import opened Text

  /** A text file on disk, changed in place by the edits below. */
  class TextFile {
    var lines: seq<string>

    constructor (lines: seq<string>)
      ensures this.lines == lines
    {
      this.lines := lines;
    }
  }

  /** The file's text. */
  function Concat(lines: seq<string>): string {
    if lines == [] then [] else Concat(lines[..|lines| - 1]) + lines[|lines| - 1]
  }

  predicate EndsWithNewline(line: string) {
    line != [] && line[|line| - 1] == '\n'
  }

  /** Some line of the file contains `data`. */
  predicate AnyLineContains(lines: seq<string>, data: string) {
    exists i :: 0 <= i < |lines| && Contains(lines[i], data)
  }

  /** `FileHelper.contains`: a scan over the lines that stops at the first line containing `data`. */
  method FileContains(file: TextFile, data: string) returns (found: bool)
    ensures found <==> AnyLineContains(file.lines, data)
  {
    var i := 0;
    while i < |file.lines|
      invariant 0 <= i <= |file.lines|
      invariant forall j :: 0 <= j < i ==> !Contains(file.lines[j], data)
    {
      if FindFrom(file.lines[i], data, 0) != -1 {
        return true;
      }
      i := i + 1;
    }
    return false;
  }

  // ---------------------------------------------------------------------
  // FileHelper.replace
  // ---------------------------------------------------------------------

  /** The replace pairs applied to one line in order, each with Python's `str.replace`. */
  function ApplyPairs(line: string, pairs: seq<(string, string)>): (r: string)
    decreases |pairs|
    ensures (forall k :: 0 <= k < |pairs| ==> |pairs[k].0| == |pairs[k].1|) ==> |r| == |line|
  {
    if pairs == [] then line
    else ApplyPairs(ReplaceAll(line, pairs[0].0, pairs[0].1), pairs[1..])
  }

  /** A line in which no pair's search string occurs is written back unchanged. */
  lemma {:induction false} ApplyPairsAbsent(line: string, pairs: seq<(string, string)>)
    requires forall k :: 0 <= k < |pairs| ==> !Contains(line, pairs[k].0)
    ensures ApplyPairs(line, pairs) == line
  {
    if pairs != [] {
      ReplaceAbsent(line, pairs[0].0, pairs[0].1);
      ApplyPairsAbsent(line, pairs[1..]);
    }
  }

  /** `FileHelper.replace`: every line is rewritten through the pairs, in place. */
  method Replace(file: TextFile, pairs: seq<(string, string)>)
    modifies file
    ensures |file.lines| == |old(file.lines)|
    ensures forall i :: 0 <= i < |file.lines| ==> file.lines[i] == ApplyPairs(old(file.lines)[i], pairs)
  {
    var source := file.lines;
    var written: seq<string> := [];
    var i := 0;
    while i < |source|
      invariant 0 <= i <= |source|
      invariant |written| == i
      invariant forall k :: 0 <= k < i ==> written[k] == ApplyPairs(source[k], pairs)
    {
      var line := source[i];
      var j := 0;
      while j < |pairs|
        invariant 0 <= j <= |pairs|
        invariant ApplyPairs(line, pairs[j..]) == ApplyPairs(source[i], pairs)
      {
        assert pairs[j..][1..] == pairs[j + 1..];
        line := ReplaceAll(line, pairs[j].0, pairs[j].1);
        j := j + 1;
      }
      written := written + [line];
      i := i + 1;
    }
    file.lines := written;
  }

  // ---------------------------------------------------------------------
  // rc.conf auto-start (BSDHandler._auto_start_set)
  // ---------------------------------------------------------------------

  const Marker: string := "v2ray_enable"

  /** The line the enable branch appends. */
  const EnableLine: string := "v2ray_enable=\"YES\"\n"

  /**
    The lines after appending the text "\n" + EnableLine in append mode: the
    newline ends an unterminated last line, or stands as an empty line.
   */
  function AppendEnable(lines: seq<string>): (r: seq<string>)
    ensures |r| == |lines| + if lines == [] || EndsWithNewline(lines[|lines| - 1]) then 2 else 1
    ensures r[|r| - 1] == EnableLine && EndsWithNewline(r[|r| - 2])
  {
    if lines == [] || EndsWithNewline(lines[|lines| - 1]) then lines + ["\n", EnableLine]
    else lines[..|lines| - 1] + [lines[|lines| - 1] + "\n", EnableLine]
  }

  lemma {:induction false} ConcatAppend(a: seq<string>, b: seq<string>)
    ensures Concat(a + b) == Concat(a) + Concat(b)
    decreases |b|
  {
    if b == [] {
      assert a + b == a;
    } else {
      var b', last := b[..|b| - 1], b[|b| - 1];
      assert (a + b)[..|a + b| - 1] == a + b';
      assert (a + b)[|a + b| - 1] == last;
      ConcatAppend(a, b');
      assert Concat(b) == Concat(b') + last;
    }
  }

  /** The text of a two-line file. */
  lemma ConcatPair(a: string, b: string)
    ensures Concat([a, b]) == a + b
  {
    assert [a, b][..1] == [a];
    assert [a][..0] == [];
    assert Concat([a]) == a;
  }

  /** Appending in terms of the file's text: exactly "\n" + EnableLine is added at the end. */
  lemma AppendEnableText(lines: seq<string>)
    ensures Concat(AppendEnable(lines)) == Concat(lines) + "\n" + EnableLine
  {
    if lines == [] || EndsWithNewline(lines[|lines| - 1]) {
      ConcatAppend(lines, ["\n", EnableLine]);
      ConcatPair("\n", EnableLine);
    } else {
      var p, l := lines[..|lines| - 1], lines[|lines| - 1];
      assert lines == p + [l];
      ConcatAppend(p, [l]);
      assert Concat([l]) == l by { assert [l][..0] == []; }
      ConcatAppend(p, [l + "\n", EnableLine]);
      ConcatPair(l + "\n", EnableLine);
    }
  }

  /** The file's lines without those that contain `data`, in their order. */
  function Without(lines: seq<string>, data: string): (r: seq<string>)
    ensures |r| <= |lines|
    ensures forall l :: l in r ==> l in lines
  {
    if lines == [] then []
    else
      var l := lines[|lines| - 1];
      Without(lines[..|lines| - 1], data) + (if Contains(l, data) then [] else [l])
  }

  /** What `_auto_start_set` makes of rc.conf. */
  function AutoStartLines(lines: seq<string>, status: bool): (r: seq<string>)
    ensures status ==> |lines| <= |r| <= |lines| + 2
    ensures !status ==> |r| <= |lines| && forall l :: l in r ==> l in lines
  {
    if status then
      if AnyLineContains(lines, Marker) then lines else AppendEnable(lines)
    else
      if AnyLineContains(lines, Marker) then Without(lines, Marker) else lines
  }

  /**
    `BSDHandler._auto_start_set`: enable appends the marker line unless some
    line already holds the marker; disable rewrites the file without the
    lines that hold it.
   */
  method AutoStartSet(rc: TextFile, status: bool)
    modifies rc
    ensures rc.lines == AutoStartLines(old(rc.lines), status)
  {
    var present := FileContains(rc, Marker);
    if status {
      if !present {
        rc.lines := AppendEnable(rc.lines);
      }
    } else if present {
      var source := rc.lines;
      var kept: seq<string> := [];
      var i := 0;
      while i < |source|
        invariant 0 <= i <= |source|
        invariant kept == Without(source[..i], Marker)
      {
        assert source[..i + 1][..i] == source[..i];
        if FindFrom(source[i], Marker, 0) == -1 {
          kept := kept + [source[i]];
        }
        i := i + 1;
      }
      assert source[..i] == source;
      rc.lines := kept;
    }
  }

  lemma EnableLineHasMarker()
    ensures Contains(EnableLine, Marker)
  {
    assert Occurs(EnableLine, Marker, 0);
  }

  /** After enabling, some line of rc.conf holds the marker. */
  lemma EnableMarks(lines: seq<string>)
    ensures AnyLineContains(AutoStartLines(lines, true), Marker)
  {
    if !AnyLineContains(lines, Marker) {
      var r := AppendEnable(lines);
      EnableLineHasMarker();
      assert r[|r| - 1] == EnableLine;
    }
  }

  /** Enabling twice is enabling once. */
  lemma EnableIdempotent(lines: seq<string>)
    ensures AutoStartLines(AutoStartLines(lines, true), true) == AutoStartLines(lines, true)
  {
    EnableMarks(lines);
  }

  /** No line of `Without(lines, data)` holds `data`. */
  lemma {:induction false} WithoutClears(lines: seq<string>, data: string)
    ensures !AnyLineContains(Without(lines, data), data)
  {
    if lines != [] {
      WithoutClears(lines[..|lines| - 1], data);
    }
  }

  /**
    `Without` drops exactly the lines that hold `data`: every other line keeps
    its number of occurrences.
   */
  lemma {:induction false} WithoutCounts(lines: seq<string>, data: string, line: string)
    ensures multiset(Without(lines, data))[line] ==
              if Contains(line, data) then 0 else multiset(lines)[line]
  {
    if lines != [] {
      var p := lines[..|lines| - 1];
      WithoutCounts(p, data, line);
      assert lines == p + [lines[|lines| - 1]];
    }
  }

  /**
    `Without` works line by line and keeps the order: the lines of a
    concatenation are filtered piece by piece, and a single line is kept
    exactly when it does not hold `data`.
   */
  lemma {:induction false} WithoutConcat(a: seq<string>, b: seq<string>, data: string)
    ensures Without(a + b, data) == Without(a, data) + Without(b, data)
    ensures |b| == 1 ==> Without(b, data) == if Contains(b[0], data) then [] else b
    decreases |b|
  {
    if b == [] {
      assert a + b == a;
    } else {
      var b' := b[..|b| - 1];
      assert (a + b)[..|a + b| - 1] == a + b';
      assert (a + b)[|a + b| - 1] == b[|b| - 1];
      WithoutConcat(a, b', data);
      if |b| == 1 {
        assert b' == [];
      }
    }
  }

  /** A file without the marker is what `Without` leaves of it. */
  lemma {:induction false} WithoutNothing(lines: seq<string>, data: string)
    requires !AnyLineContains(lines, data)
    ensures Without(lines, data) == lines
  {
    if lines != [] {
      var p := lines[..|lines| - 1];
      assert !AnyLineContains(p, data) by {
        forall i | 0 <= i < |p| ensures !Contains(p[i], data) {
          assert p[i] == lines[i];
        }
      }
      WithoutNothing(p, data);
    }
  }

  /** After disabling, no line holds the marker, and every other line is kept. */
  lemma DisableClears(lines: seq<string>, line: string)
    ensures !AnyLineContains(AutoStartLines(lines, false), Marker)
    ensures !Contains(line, Marker) ==>
              multiset(AutoStartLines(lines, false))[line] == multiset(lines)[line]
  {
    WithoutClears(lines, Marker);
    WithoutCounts(lines, Marker, line);
    if !AnyLineContains(lines, Marker) {
      WithoutNothing(lines, Marker);
    }
  }

  /**
    Enabling and then disabling a file that ends with a newline and has no
    marker leaves the file with one extra empty line: the newline written
    before the marker line stays behind.
   */
  lemma EnableThenDisable(lines: seq<string>)
    requires !AnyLineContains(lines, Marker)
    requires lines == [] || EndsWithNewline(lines[|lines| - 1])
    ensures AutoStartLines(AutoStartLines(lines, true), false) == lines + ["\n"]
  {
    var enabled := lines + ["\n", EnableLine];
    assert AutoStartLines(lines, true) == enabled;
    EnableMarks(lines);
    EnableLineHasMarker();
    assert !Contains("\n", Marker);
    WithoutNothing(lines, Marker);
    var withNewline := lines + ["\n"];
    assert enabled[..|enabled| - 1] == withNewline;
    assert Without(enabled, Marker) == Without(withNewline, Marker);
    assert withNewline[..|lines|] == lines;
    assert Without(withNewline, Marker) == Without(lines, Marker) + ["\n"];
  }
}

=== FILE: handlers.dfy ===
/**
  The platform handlers: what `install`, `upgrade`, `remove` and `purge` of
  each `OSHandler` subclass do, as the ordered list of effects they have on
  the host, and the permission rule of `UnixLikeHandler._place_file`.

  The effects are the observable steps (a download, a deletion, a command);
  the file edits behind some of them are modelled in FileEdit and Download.
 */
module Handlers {
  import opened Errors
  import opened Text
  import opened Platform
  import opened Metadata
  import opened OsHelper

  /** The files of the release archive that are linked into the base path. */
  const Executables: seq<string> := ["v2ray", "v2ctl"]

  /** Where the release is placed. */
  const InstallDir: string := "/opt/v2ray/"

  /** The directory of the 3.x releases, removed together with InstallDir. */
  const LegacyInstallDir: string := "/usr/local/v2ray/"

  /** The systemd unit file. */
  const SystemdUnit: string := "/etc/systemd/system/v2ray.service"

  /** The folder of the BSD pid file. */
  const PidDir: string := "/var/run/v2ray/"

  /** The download URL of a release asset. */
  function ReleaseUrl(version: string, file: string): string {
    "https://github.com/v2ray/v2ray-core/releases/download/" + version + "/" + file
  }

  /** `_get_conf_dir`: the configuration directory of the Unix-like handlers that place files. */
  function ConfDir(k: Kind): (r: Option<string>)
    ensures r.Some? <==> PlacesFiles(k)
    ensures r.Some? ==>
              r.value != InstallDir && r.value != LegacyInstallDir
              && |r.value| >= 6 && r.value[|r.value| - 6..] == "/v2ray"
  {
    match k
    case Linux => Some("/etc/v2ray")
    case FreeBSD => Some("/usr/local/etc/v2ray")
    case OpenBSD => Some("/etc/v2ray")
    case _ => None
  }

  /** `_get_base_path`: where the executables are linked. */
  function BasePath(k: Kind): (r: Option<string>)
    ensures r.Some? <==> PlacesFiles(k)
    ensures r.Some? ==> |r.value| >= 4 && r.value[|r.value| - 4..] == "/bin"
  {
    match k
    case Linux => Some("/usr/bin")
    case FreeBSD => Some("/usr/local/bin")
    case OpenBSD => Some("/usr/local/bin")
    case _ => None
  }

  /** `_get_user_prefix`: FreeBSD manages users through `pw`. */
  function UserPrefix(k: Kind): (r: string)
    ensures r != [] <==> k == FreeBSD
    ensures r != [] ==> r[|r| - 1] == ' '
  {
    if k == FreeBSD then "pw " else ""
  }

  /** The handlers that download, validate and place the release themselves. */
  predicate PlacesFiles(k: Kind) {
    k == Linux || k == FreeBSD || k == OpenBSD
  }

  lemma PlacesFilesHaveDirs(k: Kind)
    ensures PlacesFiles(k) <==> ConfDir(k).Some?
    ensures PlacesFiles(k) <==> BasePath(k).Some?
  {
  }

  // ---------------------------------------------------------------------
  // Permission rule of UnixLikeHandler._place_file
  // ---------------------------------------------------------------------

  /** An entry of the placed release tree, by its own name. */
  datatype Entry = Dir(name: string) | File(name: string)

  /** Unix permission bits: owner, group and other, each read (4), write (2), execute (1). */
  function Bits(mode: nat, who: nat, bit: nat): bool
    requires who < 3 && (bit == 1 || bit == 2 || bit == 4)
  {
    var shift := if who == 0 then 64 else if who == 1 then 8 else 1;
    (mode / shift) / bit % 2 == 1
  }

  /** The mode `_place_file` gives an entry, as written: executables get 0o777. */
  function ModeAsWritten(e: Entry): (m: nat)
    ensures Bits(m, 0, 4) && Bits(m, 0, 2) && Bits(m, 1, 4) && Bits(m, 2, 4)
    ensures Bits(m, 1, 2) <==> e.File? && e.name in Executables
    ensures Bits(m, 2, 2) <==> e.File? && e.name in Executables
  {
    match e
    case Dir(_) => 493                             // 0o755
    case File(n) => if n in Executables then 511   // 0o777
                    else 420                        // 0o644
  }

  /** The mode the permission rule means (the debug message says 755): executables get 0o755. */
  function Mode(e: Entry): (m: nat)
    ensures Bits(m, 0, 4) && Bits(m, 0, 2) && Bits(m, 1, 4) && Bits(m, 2, 4)
    ensures !Bits(m, 1, 2) && !Bits(m, 2, 2)
    ensures Bits(m, 0, 1) <==> e.Dir? || e.name in Executables
    ensures Bits(m, 1, 1) == Bits(m, 0, 1) && Bits(m, 2, 1) == Bits(m, 0, 1)
  {
    match e
    case Dir(_) => 493                             // 0o755
    case File(n) => if n in Executables then 493   // 0o755
                    else 420                        // 0o644
  }

  /** The rule as written differs from the intended one on the executables only. */
  lemma ModeDiffersOnExecutables(e: Entry)
    ensures ModeAsWritten(e) != Mode(e) <==> e.File? && e.name in Executables
  {
  }

  /** As written, the linked executables can be rewritten by every user of the host. */
  lemma ExecutablesWorldWritable()
    ensures forall n :: n in Executables ==> Bits(ModeAsWritten(File(n)), 1, 2) && Bits(ModeAsWritten(File(n)), 2, 2)
  {
  }

  // ---------------------------------------------------------------------
  // Effects
  // ---------------------------------------------------------------------

  datatype Effect =
    // Downloader(url, file).start() into the scratch directory
    | Fetch(url: string, file: string)
    // the validation step ended without raising
    | Validated(verdict: Verdict)
    // _extract_file of the archive into the scratch directory
    | Extract(archive: string)
    // OSHelper.remove_if_exists
    | Delete(path: string)
    // shutil.move of the extracted release to InstallDir, then the permission rule
    | PlaceRelease
    // os.symlink(target, link)
    | Symlink(target: string, link: string)
    // UnixLikeHelper.add_user / delete_user with the handler's prefix
    | AddUser(prefix: string)
    | DeleteUser(prefix: string)
    // a control script fetched from the helper's repository and moved to `path`
    | InstallScript(path: string)
    // OSHelper.mkdir / UnixLikeHelper.mkdir_chown
    | MakeDir(path: string)
    // the default config.json fetched into `dir` with a fresh uuid and port
    | InstallConfig(dir: string)
    // the rc.conf edit of BSDHandler._auto_start_set
    | EditRcConf(enable: bool)
    // CommandHelper.execute
    | Command(text: string)
    // the path `shutil.which(name)` finds, removed
    | DeleteFound(name: string)

  /** What a handler method did, and the error it raised, if any. */
  datatype Outcome = Outcome(effects: seq<Effect>, error: Option<Error>)

  /** The facts about the host a handler method reads. */
  datatype Host = Host(
    tempDir: string,
    // Linux without /run/systemd/system/
    legacy: bool,
    // `brew` is on the PATH
    hasBrew: bool,
    // config.json already exists in the configuration directory
    hasConfig: bool,
    // the release asset download completes
    assetFetched: bool,
    // metadata.txt of the release, or None when it cannot be fetched
    metadataDocument: Option<seq<string>>,
    // size and SHA-1 hex digest of the downloaded asset
    fileSize: nat,
    sha1: string
  )

  /** `_service(action)`. */
  function Service(k: Kind, action: string, legacy: bool): (r: seq<Effect>)
    ensures |r| <= 1
    ensures r == [] <==> k == Windows || (k == Linux && legacy)
    ensures r != [] ==> r[0].Command?
  {
    match k
    case Linux => if legacy then [] else [Command("systemctl " + action + " v2ray")]
    case MacOS => [Command("brew services " + action + " v2ray-core")]
    case FreeBSD => [Command("service v2ray " + action)]
    case OpenBSD => [Command("rcctl " + action + " v2ray")]
    case Windows => []
  }

  /** The command `_service` runs carries the action and names the v2ray service. */
  lemma ServiceNames(k: Kind, action: string, legacy: bool)
    ensures var r := Service(k, action, legacy);
      r != [] ==> Contains(r[0].text, action) && Contains(r[0].text, "v2ray")
  {
    match k
    case Linux =>
      assert " v2ray" == " " + "v2ray";
      var t := "systemctl " + action + " v2ray";
      assert t == "systemctl " + action + " " + "v2ray" + "";
      CommandNames("systemctl ", action, " ", "v2ray", "");
    case MacOS =>
      assert " v2ray-core" == " " + "v2ray" + "-core";
      var t := "brew services " + action + " v2ray-core";
      assert t == "brew services " + action + " " + "v2ray" + "-core";
      CommandNames("brew services ", action, " ", "v2ray", "-core");
    case FreeBSD =>
      assert "service v2ray " == "service " + "v2ray" + " ";
      var t := "service v2ray " + action;
      assert t == "service " + "v2ray" + " " + action + "";
      CommandNames("service ", "v2ray", " ", action, "");
    case OpenBSD =>
      assert " v2ray" == " " + "v2ray";
      var t := "rcctl " + action + " v2ray";
      assert t == "rcctl " + action + " " + "v2ray" + "";
      CommandNames("rcctl ", action, " ", "v2ray", "");
    case Windows =>
  }

  /** On Linux and macOS the auto-start command carries "enable" or "disable", as `status` says. */
  lemma AutoStartAction(k: Kind, status: bool, legacy: bool)
    requires k == Linux || k == MacOS
    ensures forall e :: e in AutoStart(k, status, legacy) ==>
      e.Command? && Contains(e.text, if status then "enable" else "disable")
  {
    ServiceNames(k, if status then "enable" else "disable", legacy);
  }

  /** A command made of two words and the text around them contains both words. */
  lemma CommandNames(a: string, x: string, b: string, y: string, c: string)
    ensures Contains(a + x + b + y + c, x) && Contains(a + x + b + y + c, y)
  {
    ContainsInfix(a, x, b + y + c);
    ContainsInfix(a + x + b, y, c);
    assert a + x + (b + y + c) == a + x + b + y + c;
  }

  /** `_auto_start_set(status)`: a service command, or the rc.conf edit on the BSDs. */
  function AutoStart(k: Kind, status: bool, legacy: bool): (r: seq<Effect>)
    ensures k == FreeBSD || k == OpenBSD ==> r == [EditRcConf(status)]
    ensures k == Linux || k == MacOS ==> |r| <= 1 && forall e :: e in r ==> e.Command?
  {
    if k == FreeBSD || k == OpenBSD then [EditRcConf(status)]
    else Service(k, if status then "enable" else "disable", legacy)
  }

  /** `_install_control_script`. */
  function ControlScript(k: Kind, legacy: bool): (r: seq<Effect>)
    ensures r != [] <==> PlacesFiles(k) && !(k == Linux && legacy)
    ensures r != [] ==> r[0].InstallScript? && forall e :: e in r[1..] ==> e == MakeDir(PidDir)
  {
    match k
    case Linux => if legacy then [] else [InstallScript(SystemdUnit)]
    case FreeBSD => [InstallScript("/usr/local/etc/rc.d/v2ray"), MakeDir(PidDir)]
    case OpenBSD => [InstallScript("/etc/rc.d/v2ray"), MakeDir(PidDir)]
    case _ => []
  }

  /** The old link of each executable is deleted and a new one made. */
  function Links(base: string, names: seq<string>): (r: seq<Effect>)
    ensures |r| == 2 * |names|
  {
    if names == [] then []
    else [Delete(base + "/" + names[0]), Symlink(InstallDir + names[0], base + "/" + names[0])]
         + Links(base, names[1..])
  }

  /** The constructor (`_post_init`): the scratch directory is reset; Windows and a Mac without Homebrew raise. */
  function Instantiate(k: Kind, host: Host): (r: Outcome)
    ensures r.error.Some? <==> k == Windows || (k == MacOS && !host.hasBrew)
    ensures r.effects == ResetScratch(host)
  {
    var effects := ResetScratch(host);
    if k == Windows then Outcome(effects, Some(UnsupportedPlatform))
    else if k == MacOS && !host.hasBrew then Outcome(effects, Some(HomebrewRequired))
    else Outcome(effects, None)
  }

  /** `OSHandler._post_init`: the scratch directory is removed and created again. */
  function ResetScratch(host: Host): seq<Effect> {
    var scratch := GetTemp(host.tempDir, ScratchName, None, "");
    [Delete(scratch), MakeDir(scratch)]
  }

  /**
    The first half of `install` and `upgrade`: download the asset, then
    validate it; a MetaFetchException skips the validation, every other
    failure raises before anything is extracted.
   */
  function FetchAndValidate(version: string, file: string, host: Host): (r: Outcome)
    ensures r.effects != [] && r.effects[0] == Fetch(ReleaseUrl(version, file), file)
    ensures r.error.None? <==>
      host.assetFetched && CheckDownload(host.metadataDocument, file, host.fileSize, host.sha1).Ok?
    ensures r.error.None? ==>
      r.effects == [Fetch(ReleaseUrl(version, file), file),
                    Validated(CheckDownload(host.metadataDocument, file, host.fileSize, host.sha1).value)]
    ensures r.error.Some? ==> r.effects == [Fetch(ReleaseUrl(version, file), file)] && !IsMetaFetch(r.error.value)
  {
    var url := ReleaseUrl(version, file);
    if !host.assetFetched then Outcome([Fetch(url, file)], Some(UrlUnreachable(url)))
    else match CheckDownload(host.metadataDocument, file, host.fileSize, host.sha1)
      case Err(e) => Outcome([Fetch(url, file)], Some(e))
      case Ok(verdict) => Outcome([Fetch(url, file), Validated(verdict)], None)
  }

  /** The second half: extract, delete the archive and place the release. */
  function PlaceDownloaded(file: string, host: Host): seq<Effect> {
    var archive := GetTemp(host.tempDir, ScratchName, None, file);
    [Extract(archive), Delete(archive), Delete(InstallDir), PlaceRelease]
  }

  /** The steps of `UnixLikeHandler.install` after the release is placed. */
  function SetUp(k: Kind, host: Host): (r: seq<Effect>)
    requires PlacesFiles(k)
    ensures |r| >= 5 && r[4] == AddUser(UserPrefix(k))
    ensures !(k == Linux && host.legacy) ==> r[|r| - 1] == Service(k, "start", host.legacy)[0]
  {
    var conf := ConfDir(k).value;
    Links(BasePath(k).value, Executables)
    + [AddUser(UserPrefix(k))]
    + ControlScript(k, host.legacy)
    + AutoStart(k, true, host.legacy)
    + [MakeDir(conf)]
    + (if host.hasConfig then [] else [InstallConfig(conf)])
    + Service(k, "start", host.legacy)
  }

  /** `install(version, filename)`. */
  function Install(k: Kind, version: string, file: string, host: Host): (r: Outcome)
    ensures r.error.Some? ==> PlacesFiles(k) && r.effects == [Fetch(ReleaseUrl(version, file), file)]
    ensures PlacesFiles(k) ==> r.effects != [] && r.effects[0] == Fetch(ReleaseUrl(version, file), file)
  {
    if PlacesFiles(k) then
      var fetched := FetchAndValidate(version, file, host);
      if fetched.error.Some? then fetched
      else Outcome(fetched.effects + PlaceDownloaded(file, host) + SetUp(k, host), None)
    else if k == MacOS then
      Outcome([Command("brew tap v2ray/v2ray"), Command("brew install v2ray-core"),
               Command("brew services start v2ray-core")], None)
    else Outcome([], None)
  }

  /** `upgrade(version, filename)`: configuration and user are left alone. */
  function Upgrade(k: Kind, version: string, file: string, host: Host): (r: Outcome)
    ensures r.error.Some? ==> PlacesFiles(k) && r.effects == [Fetch(ReleaseUrl(version, file), file)]
    ensures PlacesFiles(k) ==> r.effects != [] && r.effects[0] == Fetch(ReleaseUrl(version, file), file)
  {
    if PlacesFiles(k) then
      var fetched := FetchAndValidate(version, file, host);
      if fetched.error.Some? then fetched
      else Outcome(fetched.effects + PlaceDownloaded(file, host) + Service(k, "restart", host.legacy), None)
    else if k == MacOS then
      Outcome([Command("brew upgrade v2ray-core")] + Service(MacOS, "restart", host.legacy), None)
    else Outcome([], None)
  }

  /** `remove()`: stop, disable, unlink and delete the installed release. */
  function Remove(k: Kind, host: Host): (r: seq<Effect>)
    ensures PlacesFiles(k) ==>
      (|r| >= 4 && r[|r| - 4..] == [DeleteFound("v2ray"), DeleteFound("v2ctl"), Delete(InstallDir), Delete(LegacyInstallDir)])
    ensures r == [] <==> k == Windows
  {
    if PlacesFiles(k) then
      Service(k, "stop", host.legacy) + AutoStart(k, false, host.legacy)
      + [DeleteFound("v2ray"), DeleteFound("v2ctl"), Delete(InstallDir), Delete(LegacyInstallDir)]
    else if k == MacOS then [Command("brew remove v2ray-core")]
    else []
  }

  /** What `UnixLikeHandler.purge` and the BSD overrides delete after `remove()`. */
  function PurgeRest(k: Kind): (r: seq<Effect>)
    requires PlacesFiles(k)
    ensures Delete(ConfDir(k).value) in r && DeleteUser(UserPrefix(k)) in r
    ensures Delete(PidDir) in r <==> k == FreeBSD
    ensures forall e :: e in r ==> e.Delete? || e.DeleteUser?
  {
    [Delete(ConfDir(k).value), DeleteUser(UserPrefix(k)), Delete(SystemdUnit)]
    + (if k == FreeBSD then [Delete("/usr/local/etc/rc.d/v2ray"), Delete(PidDir)]
       else if k == OpenBSD then [Delete("/etc/rc.d/v2ray")]
       else [])
  }

  /**
    `purge(confirmed)`, as written: the `--sure` gate of `OSHandler.purge`
    comes first. The macOS purge starts with `UnixLikeHandler.purge`, which
    after `remove()` deletes `_get_conf_dir()`; on macOS that is None, and
    `os.path.exists(None)` raises TypeError before anything else is done.
   */
  function Purge(k: Kind, confirmed: bool, host: Host): (r: Outcome)
    ensures r.error.Some? ==>
      (r.error == Some(SureRequired) && !confirmed && r.effects == []) || (r.error == Some(PathIsNone) && k == MacOS)
    ensures k == Windows ==> r.effects == []
  {
    if k == Windows then Outcome([], None)
    else if !confirmed then Outcome([], Some(SureRequired))
    else if k == MacOS then Outcome(Remove(MacOS, host), Some(PathIsNone))
    else Outcome(Remove(k, host) + PurgeRest(k), None)
  }

  /** `purge(confirmed)` with the macOS purge removing the formula and then untapping. */
  function PurgeIntended(k: Kind, confirmed: bool, host: Host): (r: Outcome)
    ensures r.error.Some? ==> r.error == Some(SureRequired) && !confirmed && r.effects == []
  {
    if k == MacOS && confirmed then Outcome(Remove(MacOS, host) + [Command("brew untap v2ray/v2ray")], None)
    else Purge(k, confirmed, host)
  }

  // ---------------------------------------------------------------------
  // Properties
  // ---------------------------------------------------------------------

  /**
    An unconfirmed purge raises "--sure" required and does nothing at all; a
    confirmed one removes first and then deletes configuration and user.
   */
  lemma PurgeGate(k: Kind, confirmed: bool, host: Host)
    requires k != Windows
    ensures Purge(k, confirmed, host).error == Some(SureRequired) <==> !confirmed
    ensures !confirmed ==> Purge(k, confirmed, host).effects == []
    ensures confirmed ==> Purge(k, confirmed, host).effects[..|Remove(k, host)|] == Remove(k, host)
  {
  }

  /** Purge deletes the configuration directory and the user; remove keeps both. */
  lemma PurgeDeletesConfiguration(k: Kind, host: Host)
    requires PlacesFiles(k)
    ensures Delete(ConfDir(k).value) in Purge(k, true, host).effects
    ensures DeleteUser(UserPrefix(k)) in Purge(k, true, host).effects
    ensures Delete(ConfDir(k).value) !in Remove(k, host)
    ensures forall e :: e in Remove(k, host) ==> !e.DeleteUser?
  {
    var rest := PurgeRest(k);
    assert rest[0] == Delete(ConfDir(k).value) && rest[1] == DeleteUser(UserPrefix(k));
    assert Purge(k, true, host).effects == Remove(k, host) + rest;
    RemoveDeletes(k, host);
    var conf := ConfDir(k).value;
    assert |conf| != |InstallDir| && |conf| != |LegacyInstallDir|;
  }

  /** Purge deletes every control script that the set-up installs, on either kind of Linux host. */
  lemma PurgeUndoesControlScript(k: Kind, legacy: bool)
    requires PlacesFiles(k)
    ensures forall p :: InstallScript(p) in ControlScript(k, legacy) ==> Delete(p) in PurgeRest(k)
  {
  }

  /** The FreeBSD purge ends by deleting its rc.d script and the pid directory. */
  lemma PurgeFreeBSD(host: Host)
    ensures Purge(FreeBSD, true, host).error == None
    ensures var e := Purge(FreeBSD, true, host).effects;
            |e| >= 2 && e[|e| - 2..] == [Delete("/usr/local/etc/rc.d/v2ray"), Delete(PidDir)]
  {
  }

  /** The OpenBSD purge ends by deleting its rc.d script; the pid directory it made is kept. */
  lemma PurgeOpenBSD(host: Host)
    ensures Purge(OpenBSD, true, host).error == None
    ensures var e := Purge(OpenBSD, true, host).effects;
            e != [] && e[|e| - 1] == Delete("/etc/rc.d/v2ray") && Delete(PidDir) !in e
  {
    RemoveDeletes(OpenBSD, host);
  }

  /** As written, a confirmed purge on macOS raises after removing the formula and never untaps. */
  lemma MacPurgeRaises(host: Host)
    ensures Purge(MacOS, true, host) == Outcome([Command("brew remove v2ray-core")], Some(PathIsNone))
    ensures Command("brew untap v2ray/v2ray") !in Purge(MacOS, true, host).effects
  {
  }

  /**
    The intended purge succeeds once confirmed on every handler but Windows,
    removes first, and on macOS ends by untapping.
   */
  lemma PurgeIntendedCompletes(k: Kind, host: Host)
    requires k != Windows
    ensures PurgeIntended(k, true, host).error.None?
    ensures PurgeIntended(k, true, host).effects[..|Remove(k, host)|] == Remove(k, host)
    ensures k == MacOS ==>
      (PurgeIntended(k, true, host).effects == [Command("brew remove v2ray-core"), Command("brew untap v2ray/v2ray")])
  {
  }

  /** The two purges differ only on a confirmed purge on macOS. */
  lemma PurgeIntendedDiffersOnlyOnMac(k: Kind, confirmed: bool, host: Host)
    ensures PurgeIntended(k, confirmed, host) != Purge(k, confirmed, host) <==> k == MacOS && confirmed
  {
  }

  /** What `remove` deletes: the two release directories, besides the links `which` finds. */
  lemma RemoveDeletes(k: Kind, host: Host)
    requires PlacesFiles(k)
    ensures forall e :: e in Remove(k, host) ==>
      e.Command? || e.EditRcConf? || e.DeleteFound? || e == Delete(InstallDir) || e == Delete(LegacyInstallDir)
  {
    var tail := [DeleteFound("v2ray"), DeleteFound("v2ctl"), Delete(InstallDir), Delete(LegacyInstallDir)];
    var stop := Service(k, "stop", host.legacy);
    var disable := AutoStart(k, false, host.legacy);
    assert Remove(k, host) == stop + disable + tail;
    forall e | e in Remove(k, host)
      ensures e.Command? || e.EditRcConf? || e.DeleteFound? || e == Delete(InstallDir) || e == Delete(LegacyInstallDir)
    {
      assert e in stop || e in disable || e in tail;
    }
  }

  /** Links of the executables are made in pairs: delete the old link, then link to InstallDir. */
  lemma {:induction false} LinksPoint(base: string, names: seq<string>, i: nat)
    requires i < |names|
    ensures Links(base, names)[2 * i] == Delete(base + "/" + names[i])
    ensures Links(base, names)[2 * i + 1] == Symlink(InstallDir + names[i], base + "/" + names[i])
  {
    if i > 0 {
      LinksPoint(base, names[1..], i - 1);
    }
  }

  /**
    Install places the release exactly when the download and the validation
    did not raise; a metadata file that cannot be fetched or has no entry
    skips the validation and still places it.
   */
  lemma InstallPlacesOnlyValidated(k: Kind, version: string, file: string, host: Host)
    requires PlacesFiles(k)
    ensures var r := Install(k, version, file, host);
      var check := CheckDownload(host.metadataDocument, file, host.fileSize, host.sha1);
      && (PlaceRelease in r.effects <==> host.assetFetched && check.Ok?)
      && (r.error.None? <==> host.assetFetched && check.Ok?)
      && (host.assetFetched && FetchMetadata(host.metadataDocument, file).Err? ==>
            r.error.None? && r.effects[1] == Validated(Skipped(FetchMetadata(host.metadataDocument, file).error)))
  {
    var r := Install(k, version, file, host);
    var fetched := FetchAndValidate(version, file, host);
    if fetched.error.None? {
      var placed := PlaceDownloaded(file, host);
      assert r.effects == fetched.effects + placed + SetUp(k, host);
      assert r.effects[|fetched.effects| + 3] == PlaceRelease;
    }
  }

  /** The same for upgrade. */
  lemma UpgradePlacesOnlyValidated(k: Kind, version: string, file: string, host: Host)
    requires PlacesFiles(k)
    ensures var r := Upgrade(k, version, file, host);
      var check := CheckDownload(host.metadataDocument, file, host.fileSize, host.sha1);
      && (PlaceRelease in r.effects <==> host.assetFetched && check.Ok?)
      && (r.error.None? <==> host.assetFetched && check.Ok?)
  {
    var r := Upgrade(k, version, file, host);
    var fetched := FetchAndValidate(version, file, host);
    if fetched.error.None? {
      var placed := PlaceDownloaded(file, host);
      assert r.effects == fetched.effects + placed + Service(k, "restart", host.legacy);
      assert r.effects[|fetched.effects| + 3] == PlaceRelease;
    }
  }

  /** Upgrade touches neither the configuration nor the user. */
  lemma UpgradeKeepsConfiguration(k: Kind, version: string, file: string, host: Host)
    ensures forall e :: e in Upgrade(k, version, file, host).effects ==>
      !e.InstallConfig? && !e.AddUser? && !e.DeleteUser? && !e.MakeDir?
  {
    var r := Upgrade(k, version, file, host);
    if PlacesFiles(k) {
      var fetched := FetchAndValidate(version, file, host);
      if fetched.error.None? {
        var placed := PlaceDownloaded(file, host);
        var restart := Service(k, "restart", host.legacy);
        assert r.effects == fetched.effects + placed + restart;
        forall e | e in r.effects
          ensures !e.InstallConfig? && !e.AddUser? && !e.DeleteUser? && !e.MakeDir?
        {
          assert e in fetched.effects || e in placed || e in restart;
        }
      }
    }
  }

  /** An existing config.json is kept; a missing one is installed with fresh tokens. */
  lemma InstallConfigOnlyWhenMissing(k: Kind, version: string, file: string, host: Host)
    requires PlacesFiles(k)
    requires Install(k, version, file, host).error.None?
    ensures InstallConfig(ConfDir(k).value) in Install(k, version, file, host).effects <==> !host.hasConfig
  {
    var fetched := FetchAndValidate(version, file, host);
    var placed := PlaceDownloaded(file, host);
    assert Install(k, version, file, host).effects == fetched.effects + placed + SetUp(k, host);
    SetUpConfig(k, host);
  }

  /** Within the set-up steps, config.json is installed only when missing. */
  lemma SetUpConfig(k: Kind, host: Host)
    requires PlacesFiles(k)
    ensures InstallConfig(ConfDir(k).value) in SetUp(k, host) <==> !host.hasConfig
  {
    var conf := ConfDir(k).value;
    LinksOfExecutables(BasePath(k).value);
    var before := Links(BasePath(k).value, Executables) + [AddUser(UserPrefix(k))]
      + ControlScript(k, host.legacy) + AutoStart(k, true, host.legacy) + [MakeDir(conf)];
    var config: seq<Effect> := if host.hasConfig then [] else [InstallConfig(conf)];
    assert SetUp(k, host) == before + config + Service(k, "start", host.legacy);
    assert InstallConfig(conf) !in before;
    if !host.hasConfig {
      assert SetUp(k, host)[|before|] == InstallConfig(conf);
    }
  }

  /** Each executable's old link is deleted, then linked to its file under InstallDir. */
  lemma LinksOfExecutables(base: string)
    ensures Links(base, Executables) ==
      [Delete(base + "/v2ray"), Symlink("/opt/v2ray/v2ray", base + "/v2ray"),
       Delete(base + "/v2ctl"), Symlink("/opt/v2ray/v2ctl", base + "/v2ctl")]
  {
    var links := Links(base, Executables);
    LinksPoint(base, Executables, 0);
    LinksPoint(base, Executables, 1);
    assert base + "/" + "v2ray" == base + "/v2ray";
    assert base + "/" + "v2ctl" == base + "/v2ctl";
    assert InstallDir + "v2ray" == "/opt/v2ray/v2ray";
    assert InstallDir + "v2ctl" == "/opt/v2ray/v2ctl";
  }

  /** The steps after placement on a systemd Linux without a config.json. */
  lemma LinuxSetUp(host: Host)
    requires !host.legacy && !host.hasConfig
    ensures SetUp(Linux, host) == [
        Delete("/usr/bin/v2ray"), Symlink("/opt/v2ray/v2ray", "/usr/bin/v2ray"),
        Delete("/usr/bin/v2ctl"), Symlink("/opt/v2ray/v2ctl", "/usr/bin/v2ctl"),
        AddUser(""),
        InstallScript("/etc/systemd/system/v2ray.service"),
        Command("systemctl enable v2ray"),
        MakeDir("/etc/v2ray"), InstallConfig("/etc/v2ray"),
        Command("systemctl start v2ray")]
  {
    LinksOfExecutables("/usr/bin");
    assert "systemctl " + "enable" + " v2ray" == "systemctl enable v2ray";
    assert "systemctl " + "start" + " v2ray" == "systemctl start v2ray";
    assert "/usr/bin" + "/v2ray" == "/usr/bin/v2ray" && "/usr/bin" + "/v2ctl" == "/usr/bin/v2ctl";
    assert AutoStart(Linux, true, host.legacy) == [Command("systemctl enable v2ray")];
    assert Service(Linux, "start", host.legacy) == [Command("systemctl start v2ray")];
  }

  /**
    An install whose validation passed: fetch, validate, place, then the
    set-up steps (on a systemd Linux, those of LinuxSetUp).
   */
  lemma InstallPassed(k: Kind, version: string, file: string, host: Host)
    requires PlacesFiles(k) && host.assetFetched
    requires CheckDownload(host.metadataDocument, file, host.fileSize, host.sha1) == Ok(Passed)
    ensures var archive := GetTemp(host.tempDir, ScratchName, None, file);
      Install(k, version, file, host) == Outcome(
        [Fetch(ReleaseUrl(version, file), file), Validated(Passed),
         Extract(archive), Delete(archive), Delete("/opt/v2ray/"), PlaceRelease] + SetUp(k, host), None)
  {
    FetchPassed(version, file, host);
    var fetched := FetchAndValidate(version, file, host);
    var archive := GetTemp(host.tempDir, ScratchName, None, file);
    var placed := PlaceDownloaded(file, host);
    assert Install(k, version, file, host) == Outcome(fetched.effects + placed + SetUp(k, host), None);
    assert fetched.effects + placed == [Fetch(ReleaseUrl(version, file), file), Validated(Passed),
      Extract(archive), Delete(archive), Delete("/opt/v2ray/"), PlaceRelease];
  }

  lemma FetchPassed(version: string, file: string, host: Host)
    requires host.assetFetched
    requires CheckDownload(host.metadataDocument, file, host.fileSize, host.sha1) == Ok(Passed)
    ensures FetchAndValidate(version, file, host) == Outcome([Fetch(ReleaseUrl(version, file), file), Validated(Passed)], None)
  {
  }
}

=== FILE: lifecycle.dfy ===
/**
  `V2rayHelper.run`: find the handler, instantiate it, read the installed
  version, fetch the latest release and its asset, then take the one branch
  of the decision chain the command line selects.
 */
module Lifecycle {
  import opened Errors
  import opened Text
  import opened Platform
  import opened Metadata
  import opened OsHelper
  import opened Handlers

  /**
    The command line. `--auto` is on by default and cannot be switched off,
    so the auto branch is taken whenever none of the four others is.
   */
  datatype Args = Args(install: bool, upgrade: bool, remove: bool, purge: bool, force: bool, sure: bool)

  /** The handler method the decision chain calls, if any. */
  datatype Call =
    | InstallCall(version: string, file: string)
    | UpgradeCall(version: string, file: string)
    | RemoveCall
    | PurgeCall(confirmed: bool)
    | NoCall

  /** Neither install, upgrade, remove nor purge was asked for. */
  predicate AutoMode(args: Args) {
    !args.install && !args.upgrade && !args.remove && !args.purge
  }

  /**
    `_get_v2ray_version`: the second word of `v2ray --version`; a command that
    fails means nothing is installed. Output of fewer than two words makes
    the indexing raise.
   */
  function InstalledVersion(output: Option<string>): (r: Result<Option<string>>)
    ensures output.None? ==> r == Ok(None)
    ensures output.Some? && r.Ok? ==> r.value.Some? && r.value.value in Split(output.value)
    ensures output.Some? && |Split(output.value)| >= 2 ==> r == Ok(Some(Split(output.value)[1]))
    ensures output.Some? ==> (r.Err? <==> |Split(output.value)| < 2)
  {
    match output
    case None => Ok(None)
    case Some(text) =>
      var words := Split(text);
      if |words| < 2 then Err(VersionUnreadable) else Ok(Some(words[1]))
  }

  /** The decision chain of `run`, as written. */
  function Decide(args: Args, installed: Option<string>, latest: string, file: string): (r: Result<Call>)
    ensures r.Ok? && r.value.InstallCall? ==> args.install || (AutoMode(args) && installed.None?)
    ensures r.Ok? && r.value.UpgradeCall? ==>
      !args.install && installed.Some? && ((args.upgrade && args.force) || (AutoMode(args) && installed.value != latest))
    ensures r.Ok? && r.value.RemoveCall? ==> !args.install && !args.upgrade && args.remove
    ensures r.Ok? && r.value.PurgeCall? ==>
      !args.install && !args.upgrade && !args.remove && args.purge && r.value.confirmed == args.sure
    ensures r.Ok? && (r.value.InstallCall? || r.value.UpgradeCall?) ==> r.value.version == latest && r.value.file == file
  {
    if args.install then
      if !args.force && installed.Some? then Err(AlreadyInstalled)
      else Ok(InstallCall(latest, file))
    else if args.upgrade then
      if installed.None? then Err(NotInstalledForUpgrade)
      else if installed.value != latest || args.force then
        if args.force then Ok(UpgradeCall(latest, file)) else Ok(NoCall)
      else Err(AlreadyLatest)
    else if args.remove then
      if !args.force && installed.None? then Err(NotInstalledForRemove)
      else Ok(RemoveCall)
    else if args.purge then Ok(PurgeCall(args.sure))
    else
      if installed.None? then Ok(InstallCall(latest, file))
      else if installed.value != latest then Ok(UpgradeCall(latest, file))
      else Err(AlreadyLatest)
  }

  /** The decision chain with the upgrade branch calling `upgrade` whenever its guard holds. */
  function DecideIntended(args: Args, installed: Option<string>, latest: string, file: string): (r: Result<Call>)
    ensures r.Ok? && r.value.UpgradeCall? ==>
      !args.install && installed.Some? && (installed.value != latest || args.force) && r.value.version == latest
    ensures r != Ok(NoCall)
  {
    if args.upgrade && !args.install then
      if installed.None? then Err(NotInstalledForUpgrade)
      else if installed.value != latest || args.force then Ok(UpgradeCall(latest, file))
      else Err(AlreadyLatest)
    else Decide(args, installed, latest, file)
  }

  /** The conditions under which `run` raises instead of calling the handler, and what it raises. */
  lemma DecideErrors(args: Args, installed: Option<string>, latest: string, file: string)
    ensures var r := Decide(args, installed, latest, file);
      && (r == Err(AlreadyInstalled) <==> args.install && !args.force && installed.Some?)
      && (r == Err(NotInstalledForUpgrade) <==> !args.install && args.upgrade && installed.None?)
      && (r == Err(NotInstalledForRemove) <==>
            !args.install && !args.upgrade && args.remove && !args.force && installed.None?)
      && (r == Err(AlreadyLatest) <==>
            installed == Some(latest) &&
            ((!args.install && args.upgrade && !args.force) || AutoMode(args)))
      && (r.Err? ==> r.error in {AlreadyInstalled, NotInstalledForUpgrade, NotInstalledForRemove, AlreadyLatest})
  {
  }

  /** Auto installs when nothing is installed, upgrades an older version and refuses the latest one, whatever `--force` says. */
  lemma AutoDispatch(args: Args, installed: Option<string>, latest: string, file: string)
    requires AutoMode(args)
    ensures installed.None? ==> Decide(args, installed, latest, file) == Ok(InstallCall(latest, file))
    ensures installed.Some? && installed.value != latest ==>
              Decide(args, installed, latest, file) == Ok(UpgradeCall(latest, file))
    ensures installed == Some(latest) ==> Decide(args, installed, latest, file) == Err(AlreadyLatest)
  {
  }

  /** As written, `--upgrade` reaches the handler only with `--force`, whatever the versions are. */
  lemma UpgradeOnlyForced(args: Args, installed: Option<string>, latest: string, file: string)
    requires args.upgrade && !args.install
    ensures (Decide(args, installed, latest, file).Ok? && Decide(args, installed, latest, file).value.UpgradeCall?)
              <==> installed.Some? && args.force
  {
  }

  /** The input that shows it: an older version with plain `--upgrade` succeeds without upgrading. */
  lemma UpgradeIsNoOp()
    ensures Decide(Args(false, true, false, false, false, false), Some("v4.22.0"), "v4.23.0", "v2ray-linux-64.zip")
              == Ok(NoCall)
  {
  }

  /** The intended chain upgrades exactly when something is installed and it is older or `--force` is given. */
  lemma UpgradeIntended(args: Args, installed: Option<string>, latest: string, file: string)
    requires args.upgrade && !args.install
    ensures (DecideIntended(args, installed, latest, file) == Ok(UpgradeCall(latest, file)))
              <==> installed.Some? && (installed.value != latest || args.force)
    ensures DecideIntended(args, installed, latest, file) != Ok(NoCall)
  {
  }

  /** The two chains differ only on the non-forced upgrade of an older version. */
  lemma IntendedDiffersOnlyThere(args: Args, installed: Option<string>, latest: string, file: string)
    ensures DecideIntended(args, installed, latest, file) != Decide(args, installed, latest, file)
            <==> args.upgrade && !args.install && !args.force && installed.Some? && installed.value != latest
  {
  }

  // ---------------------------------------------------------------------
  // run
  // ---------------------------------------------------------------------

  /** What `V2RayAPI.fetch` obtained: the tag of the latest release and its asset names. */
  datatype Release = Release(latest: string, assets: seq<string>)

  /** What `run` knows once it reaches the decision chain. */
  datatype Setup = Setup(kind: Kind, effects: seq<Effect>, installed: Option<string>, latest: string, file: string)

  datatype Prepared = Failed(outcome: Outcome) | Ready(setup: Setup)

  /**
    `V2RayAPI.fetch` then `search`: the latest tag and the asset to fetch.
    An API that cannot be reached raises before the search.
   */
  function Resolve(osName: string, machine: string, release: Option<Release>): (r: Result<(string, string)>)
    ensures release.None? ==> r == Err(ApiUnreachable)
    ensures release.Some? ==> (r.Ok? <==> SelectAsset(osName, machine, release.value.assets).Ok?)
    ensures r.Ok? ==> r.value == (release.value.latest, SelectAsset(osName, machine, release.value.assets).value)
  {
    match release
    case None => Err(ApiUnreachable)
    case Some(rel) =>
      match SelectAsset(osName, machine, rel.assets)
      case Err(e) => Err(e)
      case Ok(file) => Ok((rel.latest, file))
  }

  /**
    The steps of `run` after the handler class is found, in their order:
    construction, version query, fetch and search.
   */
  function Construct(k: Kind, host: Host, installed: Result<Option<string>>, resolved: Result<(string, string)>): (r: Prepared)
    ensures r.Ready? <==> Instantiate(k, host).error.None? && installed.Ok? && resolved.Ok?
    ensures r.Ready? ==>
      r.setup == Setup(k, ResetScratch(host), installed.value, resolved.value.0, resolved.value.1)
    ensures r.Failed? ==> r.outcome.error.Some? && r.outcome.effects == ResetScratch(host)
  {
    var init := Instantiate(k, host);
    if init.error.Some? then Failed(init)
    else match installed
      case Err(e) => Failed(Outcome(init.effects, Some(e)))
      case Ok(version) =>
        match resolved
        case Err(e) => Failed(Outcome(init.effects, Some(e)))
        case Ok((latest, file)) => Ready(Setup(k, init.effects, version, latest, file))
  }

  /** The steps of `run` before the decision chain. */
  function Prepare(osName: string, machine: string, host: Host, versionOutput: Option<string>,
                   release: Option<Release>): (r: Prepared)
    ensures HandlerFor(osName).Err? ==> r == Failed(Outcome([], Some(UnsupportedPlatform)))
    ensures HandlerFor(osName).Ok? && r.Failed? ==> r.outcome.effects == ResetScratch(host)
    ensures HandlerFor(osName).Ok? && r.Ready? ==> r.setup.effects == ResetScratch(host)
  {
    match HandlerFor(osName)
    case Err(e) => Failed(Outcome([], Some(e)))
    case Ok(k) => Construct(k, host, InstalledVersion(versionOutput), Resolve(osName, machine, release))
  }

  /** The handler method a call runs; `intended` selects the intended purge. */
  function Execute(k: Kind, call: Call, host: Host, intended: bool): (r: Outcome)
    ensures (call.InstallCall? || call.UpgradeCall?) && r.error.Some? ==>
      r.effects == [Fetch(ReleaseUrl(call.version, call.file), call.file)]
    ensures call.RemoveCall? || call.NoCall? ==> r.error.None?
    ensures call.NoCall? ==> r.effects == []
  {
    match call
    case InstallCall(version, file) => Install(k, version, file, host)
    case UpgradeCall(version, file) => Upgrade(k, version, file, host)
    case RemoveCall => Outcome(Remove(k, host), None)
    case PurgeCall(confirmed) => if intended then PurgeIntended(k, confirmed, host) else Purge(k, confirmed, host)
    case NoCall => Outcome([], None)
  }

  /** The decision taken, and the handler call it selects made. */
  function Conclude(s: Setup, decision: Result<Call>, host: Host, intended: bool): (r: Outcome)
    ensures decision.Err? ==> r == Outcome(s.effects, Some(decision.error))
    ensures |s.effects| <= |r.effects| && r.effects[..|s.effects|] == s.effects
  {
    match decision
    case Err(e) => Outcome(s.effects, Some(e))
    case Ok(call) =>
      var h := Execute(s.kind, call, host, intended);
      Outcome(s.effects + h.effects, h.error)
  }

  /** `run`, as written. */
  function Run(osName: string, machine: string, host: Host, versionOutput: Option<string>,
               release: Option<Release>, args: Args): (r: Outcome)
    ensures HandlerFor(osName).Err? ==> r == Outcome([], Some(UnsupportedPlatform))
    ensures HandlerFor(osName).Ok? ==> |r.effects| >= 2 && r.effects[..2] == ResetScratch(host)
  {
    match Prepare(osName, machine, host, versionOutput, release)
    case Failed(o) => o
    case Ready(s) => Conclude(s, Decide(args, s.installed, s.latest, s.file), host, false)
  }

  /** `run` with the intended upgrade branch and the intended macOS purge. */
  function RunIntended(osName: string, machine: string, host: Host, versionOutput: Option<string>,
                       release: Option<Release>, args: Args): (r: Outcome)
    ensures HandlerFor(osName).Err? ==> r == Outcome([], Some(UnsupportedPlatform))
    ensures HandlerFor(osName).Ok? ==> |r.effects| >= 2 && r.effects[..2] == ResetScratch(host)
  {
    match Prepare(osName, machine, host, versionOutput, release)
    case Failed(o) => o
    case Ready(s) => Conclude(s, DecideIntended(args, s.installed, s.latest, s.file), host, true)
  }

  /** No effect of a handler method: only the scratch directory reset, if the handler was made. */
  predicate OnlyScratch(o: Outcome, host: Host) {
    o.effects == [] || o.effects == ResetScratch(host)
  }

  /**
    Every refusal of the decision chain comes before any handler method runs:
    the only effect is the scratch directory reset of the constructor.
   */
  lemma RefusalHasNoHandlerEffect(osName: string, machine: string, host: Host, versionOutput: Option<string>,
                                  release: Option<Release>, args: Args)
    requires var p := Prepare(osName, machine, host, versionOutput, release);
      p.Ready? && Decide(args, p.setup.installed, p.setup.latest, p.setup.file).Err?
    ensures var r := Run(osName, machine, host, versionOutput, release, args);
      r.error.Some? && r.effects == ResetScratch(host)
  {
  }

  /** A run that fails before the decision chain has no handler effect either. */
  lemma EarlyFailureHasNoHandlerEffect(osName: string, machine: string, host: Host, versionOutput: Option<string>,
                                       release: Option<Release>, args: Args)
    requires Prepare(osName, machine, host, versionOutput, release).Failed?
    ensures var r := Run(osName, machine, host, versionOutput, release, args);
      r.error.Some? && OnlyScratch(r, host)
  {
  }

  lemma ConcludeUnconfirmedPurge(s: Setup, args: Args, host: Host)
    requires !args.install && !args.upgrade && !args.remove && args.purge && !args.sure
    requires s.kind != Windows
    ensures Conclude(s, Decide(args, s.installed, s.latest, s.file), host, false) == Outcome(s.effects, Some(SureRequired))
  {
    PurgeGate(s.kind, false, host);
    assert s.effects + [] == s.effects;
  }

  /** An unconfirmed purge raises "--sure" required and deletes nothing but the scratch directory. */
  lemma PurgeNeedsSure(osName: string, machine: string, host: Host, versionOutput: Option<string>,
                       release: Option<Release>, args: Args)
    requires !args.install && !args.upgrade && !args.remove && args.purge && !args.sure
    requires Prepare(osName, machine, host, versionOutput, release).Ready?
    ensures var r := Run(osName, machine, host, versionOutput, release, args);
      r == Outcome(ResetScratch(host), Some(SureRequired))
  {
    var k := HandlerFor(osName).value;
    var p := Construct(k, host, InstalledVersion(versionOutput), Resolve(osName, machine, release));
    assert Prepare(osName, machine, host, versionOutput, release) == p;
    ConcludeUnconfirmedPurge(p.setup, args, host);
  }

  /**
    Auto with nothing installed runs the handler's install of the latest
    release's asset, after the scratch directory reset.
   */
  lemma AutoInstalls(osName: string, machine: string, host: Host, release: Option<Release>, args: Args)
    requires AutoMode(args)
    requires Prepare(osName, machine, host, None, release).Ready?
    ensures var s := Prepare(osName, machine, host, None, release).setup;
      var i := Install(s.kind, release.value.latest, s.file, host);
      Run(osName, machine, host, None, release, args) == Outcome(ResetScratch(host) + i.effects, i.error)
  {
  }

  /** Auto at the latest version raises AlreadyLatest and downloads nothing. */
  lemma AutoAtLatest(osName: string, machine: string, host: Host, versionOutput: Option<string>,
                     release: Option<Release>, args: Args)
    requires AutoMode(args)
    requires var p := Prepare(osName, machine, host, versionOutput, release);
      p.Ready? && p.setup.installed == Some(p.setup.latest)
    ensures var r := Run(osName, machine, host, versionOutput, release, args);
      r.error == Some(AlreadyLatest) && forall e :: e in r.effects ==> !e.Fetch?
  {
    var k := HandlerFor(osName).value;
    var p := Construct(k, host, InstalledVersion(versionOutput), Resolve(osName, machine, release));
    assert Prepare(osName, machine, host, versionOutput, release) == p;
    assert Decide(args, p.setup.installed, p.setup.latest, p.setup.file) == Err(AlreadyLatest);
  }

  /** Upgrade with nothing installed raises before the downloader is invoked. */
  lemma UpgradeNeedsInstall(osName: string, machine: string, host: Host, release: Option<Release>, args: Args)
    requires !args.install && args.upgrade
    requires Prepare(osName, machine, host, None, release).Ready?
    ensures var r := Run(osName, machine, host, None, release, args);
      r.error == Some(NotInstalledForUpgrade) && forall e :: e in r.effects ==> !e.Fetch?
  {
    var k := HandlerFor(osName).value;
    var p := Construct(k, host, InstalledVersion(None), Resolve(osName, machine, release));
    assert Prepare(osName, machine, host, None, release) == p;
    assert Decide(args, p.setup.installed, p.setup.latest, p.setup.file) == Err(NotInstalledForUpgrade);
  }

  lemma ConcludeFreshLinux(s: Setup, args: Args, host: Host)
    requires AutoMode(args) && !host.legacy && !host.hasConfig && host.assetFetched
    requires s.kind == Linux && s.installed.None? && s.effects == ResetScratch(host)
    requires CheckDownload(host.metadataDocument, s.file, host.fileSize, host.sha1) == Ok(Passed)
    ensures var r := Conclude(s, Decide(args, s.installed, s.latest, s.file), host, false);
      && r.error.None?
      && r.effects[..3] == ResetScratch(host) + [Fetch(ReleaseUrl(s.latest, s.file), s.file)]
      && r.effects[3] == Validated(Passed)
      && r.effects[|r.effects| - 1] == Command("systemctl start v2ray")
  {
    InstallPassed(Linux, s.latest, s.file, host);
    LinuxSetUp(host);
    var i := Install(Linux, s.latest, s.file, host);
    assert Conclude(s, Decide(args, s.installed, s.latest, s.file), host, false) == Outcome(s.effects + i.effects, None);
  }

  /**
    A systemd Linux host with nothing installed, whose metadata confirms the
    asset: auto fetches the latest asset, validates it and ends by starting
    the service.
   */
  lemma AutoOnFreshLinux(osName: string, machine: string, host: Host, release: Release, args: Args)
    requires AutoMode(args) && !host.legacy && !host.hasConfig && host.assetFetched
    requires HandlerFor(osName) == Ok(Linux)
    requires SelectAsset(osName, machine, release.assets).Ok?
    requires var file := SelectAsset(osName, machine, release.assets).value;
      CheckDownload(host.metadataDocument, file, host.fileSize, host.sha1) == Ok(Passed)
    ensures var r := Run(osName, machine, host, None, Some(release), args);
      var file := SelectAsset(osName, machine, release.assets).value;
      && r.error.None?
      && r.effects[..3] == ResetScratch(host) + [Fetch(ReleaseUrl(release.latest, file), file)]
      && r.effects[3] == Validated(Passed)
      && r.effects[|r.effects| - 1] == Command("systemctl start v2ray")
  {
    var file := SelectAsset(osName, machine, release.assets).value;
    var s := Setup(Linux, ResetScratch(host), None, release.latest, file);
    assert Resolve(osName, machine, Some(release)) == Ok((release.latest, file));
    assert Construct(Linux, host, Ok(None), Ok((release.latest, file))) == Ready(s);
    assert Prepare(osName, machine, host, None, Some(release)) == Ready(s);
    ConcludeFreshLinux(s, args, host);
  }

  lemma ConcludeUpgradeOlder(s: Setup, args: Args, host: Host)
    requires args.upgrade && !args.install && !args.force
    requires s.installed.Some? && s.installed.value != s.latest
    ensures Conclude(s, Decide(args, s.installed, s.latest, s.file), host, false) == Outcome(s.effects, None)
    ensures var u := Upgrade(s.kind, s.latest, s.file, host);
      Conclude(s, DecideIntended(args, s.installed, s.latest, s.file), host, true) == Outcome(s.effects + u.effects, u.error)
  {
    assert s.effects + [] == s.effects;
  }

  /**
    Plain `--upgrade` of an older installed version: as written `run` ends
    after the scratch directory reset without an error and without upgrading;
    the intended `run` calls the handler's upgrade.
   */
  lemma UpgradeOlderRun(osName: string, machine: string, host: Host, versionOutput: Option<string>,
                        release: Option<Release>, args: Args)
    requires args.upgrade && !args.install && !args.force
    requires var p := Prepare(osName, machine, host, versionOutput, release);
      p.Ready? && p.setup.installed.Some? && p.setup.installed.value != p.setup.latest
    ensures Run(osName, machine, host, versionOutput, release, args) == Outcome(ResetScratch(host), None)
    ensures var s := Prepare(osName, machine, host, versionOutput, release).setup;
      var u := Upgrade(s.kind, s.latest, s.file, host);
      RunIntended(osName, machine, host, versionOutput, release, args) == Outcome(ResetScratch(host) + u.effects, u.error)
  {
    var k := HandlerFor(osName).value;
    var p := Construct(k, host, InstalledVersion(versionOutput), Resolve(osName, machine, release));
    assert Prepare(osName, machine, host, versionOutput, release) == p;
    ConcludeUpgradeOlder(p.setup, args, host);
  }
}

=== FILE: metadata.dfy ===
/**
  Release metadata and download validation: the line scanner of
  `OSHandler._get_metadata`, the size and SHA-1 checks of
  `UnixLikeHandler._validate_download`, and the way `install` and `upgrade`
  skip validation when the metadata cannot be had.

  The metadata document is given as its lines (the result of
  `splitlines()`), or as None when fetching it raised URLError. The size and
  the SHA-1 hex digest of the downloaded file are given as values.
 */
module Metadata {
  import opened Errors
  import opened Text

  // ---------------------------------------------------------------------
  // Scanning metadata.txt
  // ---------------------------------------------------------------------

  /** The scanner's variables: `s_counter` and the `metadata` list. */
  datatype ScanState = ScanState(counter: nat, values: seq<string>)

  /** The header that opens the section of `fileName`: the tokens `File:` and the name. */
  predicate IsHeader(line: string, fileName: string) {
    Split(line) == ["File:", fileName]
  }

  predicate IsBlank(line: string) {
    Split(line) == []
  }

  /** One turn of the scanner's loop. */
  function Step(st: ScanState, line: string, fileName: string): (r: ScanState)
    ensures st.values <= r.values && |r.values| <= |st.values| + 1
    ensures |r.values| > |st.values| ==>
      st.counter >= 1 && |Split(line)| == 2 && r.values[|st.values|] == Split(line)[1]
  {
    var data := Split(line);
    if |data| == 0 then ScanState(0, st.values)
    else if |data| == 2 then
      var counter := if st.counter >= 1 then st.counter + 1 else st.counter;
      var values := if st.counter >= 1 then st.values + [data[1]] else st.values;
      ScanState(if data[0] == "File:" && data[1] == fileName then counter + 1 else counter, values)
    else st
  }

  /** The scanner's variables after the lines `lines`. */
  function Scan(lines: seq<string>, fileName: string): (r: ScanState)
    ensures |r.values| < |lines| || lines == []
  {
    if lines == [] then ScanState(0, [])
    else Step(Scan(lines[..|lines| - 1], fileName), lines[|lines| - 1], fileName)
  }

  /** The header of `fileName` occurs in `p` and no blank line follows it there. */
  ghost predicate InSection(p: seq<string>, fileName: string) {
    exists j :: 0 <= j < |p| && IsHeader(p[j], fileName) &&
      forall k :: j < k < |p| ==> !IsBlank(p[k])
  }

  /**
    The values the scanner is meant to collect, stated without the counter:
    the second token of every two-token line that comes after a header of
    `fileName` with no blank line in between.
   */
  ghost function Expected(lines: seq<string>, fileName: string): (r: seq<string>)
    ensures |r| <= |lines|
    ensures forall v :: v in r ==> exists i :: 0 <= i < |lines| && |Split(lines[i])| == 2 && Split(lines[i])[1] == v
  {
    if lines == [] then []
    else
      var p := lines[..|lines| - 1];
      var data := Split(lines[|lines| - 1]);
      Expected(p, fileName) + (if |data| == 2 && InSection(p, fileName) then [data[1]] else [])
  }

  lemma InSectionSnoc(p: seq<string>, l: string, fileName: string)
    ensures InSection(p + [l], fileName) <==> IsHeader(l, fileName) || (InSection(p, fileName) && !IsBlank(l))
  {
    var q := p + [l];
    if IsHeader(l, fileName) {
      assert IsHeader(q[|p|], fileName);
    }
    if InSection(p, fileName) && !IsBlank(l) {
      var j :| 0 <= j < |p| && IsHeader(p[j], fileName) && forall k :: j < k < |p| ==> !IsBlank(p[k]);
      assert IsHeader(q[j], fileName);
      assert forall k :: j < k < |q| ==> !IsBlank(q[k]) by {
        forall k | j < k < |q| ensures !IsBlank(q[k]) {
          if k < |p| { assert q[k] == p[k]; }
        }
      }
    }
    if InSection(q, fileName) {
      var j :| 0 <= j < |q| && IsHeader(q[j], fileName) && forall k :: j < k < |q| ==> !IsBlank(q[k]);
      if j < |p| {
        assert q[j] == p[j];
        assert !IsBlank(q[|p|]);
        assert forall k :: j < k < |p| ==> !IsBlank(p[k]) by {
          forall k | j < k < |p| ensures !IsBlank(p[k]) {
            assert q[k] == p[k];
          }
        }
      }
    }
  }

  /** The counter is positive exactly when the scan is inside the section of `fileName`. */
  lemma {:induction false} ScanCounter(lines: seq<string>, fileName: string)
    ensures Scan(lines, fileName).counter >= 1 <==> InSection(lines, fileName)
  {
    if lines != [] {
      var p, l := lines[..|lines| - 1], lines[|lines| - 1];
      assert lines == p + [l];
      ScanCounter(p, fileName);
      InSectionSnoc(p, l, fileName);
      StepCounter(Scan(p, fileName), l, fileName);
    }
  }

  /** One step enters the section at its header, stays in it until a blank line. */
  lemma StepCounter(st: ScanState, line: string, fileName: string)
    ensures Step(st, line, fileName).counter >= 1 <==>
              IsHeader(line, fileName) || (st.counter >= 1 && !IsBlank(line))
  {
    var data := Split(line);
    if |data| == 2 {
      assert data == ["File:", fileName] <==> data[0] == "File:" && data[1] == fileName;
    }
  }

  /** The scanner collects exactly the values the section rule describes. */
  lemma {:induction false} ScanCollectsExpected(lines: seq<string>, fileName: string)
    ensures Scan(lines, fileName).values == Expected(lines, fileName)
  {
    if lines != [] {
      var p := lines[..|lines| - 1];
      ScanCollectsExpected(p, fileName);
      ScanCounter(p, fileName);
    }
  }

  /** A document without a header for the file yields no values. */
  lemma {:induction false} NoHeaderNoValues(lines: seq<string>, fileName: string)
    requires forall i :: 0 <= i < |lines| ==> !IsHeader(lines[i], fileName)
    ensures Expected(lines, fileName) == []
  {
    if lines != [] {
      var p := lines[..|lines| - 1];
      NoHeaderNoValues(p, fileName);
    }
  }

  /**
    `_get_metadata`: MetadataUnreachable when the document could not be
    fetched, MetadataNotFound when the scan collects nothing, otherwise the
    collected values.
   */
  function FetchMetadata(document: Option<seq<string>>, fileName: string): (r: Result<seq<string>>)
    ensures document.None? ==> r == Err(MetadataUnreachable)
    ensures document.Some? ==>
      var v := Expected(document.value, fileName);
      r == if v == [] then Err(MetadataNotFound(fileName)) else Ok(v)
    ensures r.Err? ==> IsMetaFetch(r.error)
  {
    match document
    case None => Err(MetadataUnreachable)
    case Some(lines) =>
      ScanCollectsExpected(lines, fileName);
      var v := Scan(lines, fileName).values;
      if v == [] then Err(MetadataNotFound(fileName)) else Ok(v)
  }

  /** `_get_metadata` as the source writes it: a loop that updates the counter and the list. */
  method GetMetadata(document: Option<seq<string>>, fileName: string) returns (r: Result<seq<string>>)
    ensures r == FetchMetadata(document, fileName)
  {
    if document.None? {
      return Err(MetadataUnreachable);
    }
    var lines := document.value;
    var counter: nat := 0;
    var metadata: seq<string> := [];
    var i := 0;
    while i < |lines|
      invariant 0 <= i <= |lines|
      invariant ScanState(counter, metadata) == Scan(lines[..i], fileName)
    {
      assert lines[..i + 1][..i] == lines[..i];
      var data := Split(lines[i]);
      if |data| == 0 {
        counter := 0;
      } else if |data| == 2 {
        if counter >= 1 {
          metadata := metadata + [data[1]];
          counter := counter + 1;
        }
        if data[0] == "File:" && data[1] == fileName {
          counter := counter + 1;
        }
      }
      i := i + 1;
    }
    assert lines[..i] == lines;
    if |metadata| != 0 {
      return Ok(metadata);
    }
    return Err(MetadataNotFound(fileName));
  }

  lemma SplitPair(a: string, b: string)
    requires a != [] && NoSpace(a) && b != [] && NoSpace(b)
    ensures Split(a + " " + b) == [a, b]
  {
    SplitJoin([a, b]);
    assert a + " " + b == Join([a, b], " ");
  }

  /** The scan of one more line is one more step. */
  lemma ScanSnoc(p: seq<string>, l: string, fileName: string)
    ensures Scan(p + [l], fileName) == Step(Scan(p, fileName), l, fileName)
  {
    assert (p + [l])[..|p|] == p;
  }

  /** A line with the two tokens `key` and `value`, seen inside the section, is collected. */
  lemma StepValue(st: ScanState, key: string, value: string, fileName: string)
    requires key != [] && NoSpace(key) && value != [] && NoSpace(value) && key != "File:"
    requires st.counter >= 1
    ensures Step(st, key + " " + value, fileName) == ScanState(st.counter + 1, st.values + [value])
  {
    SplitPair(key, value);
  }

  /** The header of `fileName` opens the section. */
  lemma StepHeader(fileName: string)
    requires fileName != [] && NoSpace(fileName)
    ensures Step(ScanState(0, []), "File: " + fileName, fileName) == ScanState(1, [])
  {
    assert NoSpace("File:");
    SplitPair("File:", fileName);
    assert "File: " + fileName == "File:" + " " + fileName;
  }

  /** A blank line closes the section and keeps the values. */
  lemma StepBlank(st: ScanState, fileName: string)
    ensures Step(st, "", fileName) == ScanState(0, st.values)
  {
    assert Split("") == [];
  }

  /** The scan of a document decides what `FetchMetadata` returns for it. */
  lemma FetchScanned(lines: seq<string>, fileName: string, v: seq<string>)
    requires Scan(lines, fileName).values == v && v != []
    ensures FetchMetadata(Some(lines), fileName) == Ok(v)
  {
    ScanCollectsExpected(lines, fileName);
  }

  /**
    A section as the release publishes it: the header, then a size line and a
    SHA-1 line, then a blank line. The scan yields the size and the digest.
   */
  lemma SectionExample(fileName: string, size: string, sha1: string)
    requires fileName != [] && NoSpace(fileName)
    requires size != [] && NoSpace(size)
    requires sha1 != [] && NoSpace(sha1)
    ensures FetchMetadata(Some(["File: " + fileName, "Size: " + size, "SHA1: " + sha1, ""]), fileName)
         == Ok([size, sha1])
  {
    var l0, l1, l2 := "File: " + fileName, "Size: " + size, "SHA1: " + sha1;
    assert NoSpace("Size:") && NoSpace("SHA1:");
    assert l1 == "Size:" + " " + size && l2 == "SHA1:" + " " + sha1;
    StepHeader(fileName);
    var s1 := ScanState(1, []);
    StepValue(s1, "Size:", size, fileName);
    var s2 := Step(s1, l1, fileName);
    StepValue(s2, "SHA1:", sha1, fileName);
    var s3 := Step(s2, l2, fileName);
    StepBlank(s3, fileName);
    ScanFour(l0, l1, l2, "", fileName);
    FetchScanned([l0, l1, l2, ""], fileName, [size, sha1]);
  }

  /** The scan of four lines is four steps. */
  lemma ScanFour(l0: string, l1: string, l2: string, l3: string, fileName: string)
    ensures Scan([l0, l1, l2, l3], fileName)
         == Step(Step(Step(Step(ScanState(0, []), l0, fileName), l1, fileName), l2, fileName), l3, fileName)
  {
    ScanSnoc([], l0, fileName);
    assert [] + [l0] == [l0];
    ScanSnoc([l0], l1, fileName);
    assert [l0] + [l1] == [l0, l1];
    ScanSnoc([l0, l1], l2, fileName);
    assert [l0, l1] + [l2] == [l0, l1, l2];
    ScanSnoc([l0, l1, l2], l3, fileName);
    assert [l0, l1, l2] + [l3] == [l0, l1, l2, l3];
  }

  // ---------------------------------------------------------------------
  // int() on the size token
  // ---------------------------------------------------------------------

  predicate IsDigit(c: char) {
    '0' <= c <= '9'
  }

  predicate AllDigits(s: string) {
    forall i :: 0 <= i < |s| ==> IsDigit(s[i])
  }

  function DigitsValue(s: string): nat
    requires AllDigits(s)
  {
    if s == [] then 0
    else DigitsValue(s[..|s| - 1]) * 10 + (s[|s| - 1] as int - '0' as int)
  }

  /** Python's `int(s)` on a token: an optional sign, then one or more decimal digits. */
  function ParseInt(s: string): (r: Option<int>)
    ensures s != [] && AllDigits(s) ==> r == Some(DigitsValue(s) as int)
    ensures r.Some? ==> s != [] && (r.value < 0 ==> s[0] == '-')
    ensures s == [] || (s[0] != '+' && s[0] != '-' && !IsDigit(s[0])) ==> r.None?
    ensures r.Some? <==>
              var d := if s != [] && (s[0] == '+' || s[0] == '-') then s[1..] else s;
              d != [] && AllDigits(d)
  {
    var signed := s != [] && (s[0] == '+' || s[0] == '-');
    var digits := if signed then s[1..] else s;
    if digits == [] || !AllDigits(digits) then None
    else
      var value: int := DigitsValue(digits);
      Some(if signed && s[0] == '-' then -value else value)
  }

  /** A sign before the digits: `int("-<d>")` is minus the digits' value, and `int("+<d>")` is their value. */
  lemma ParseIntSigned(d: string)
    requires d != [] && AllDigits(d)
    ensures ParseInt("-" + d) == Some(-(DigitsValue(d) as int))
    ensures ParseInt("+" + d) == Some(DigitsValue(d) as int)
  {
    assert ("-" + d)[1..] == d;
    assert ("+" + d)[1..] == d;
  }

  /** A token with a non-digit after its optional sign, such as "12a" or "+-5", is not an integer. */
  lemma ParseIntRejects(s: string, i: nat)
    requires s != [] && (s[0] == '+' || s[0] == '-' || IsDigit(s[0]))
    requires 0 < i < |s| && !IsDigit(s[i])
    ensures ParseInt(s).None?
  {
    var d := if s[0] == '+' || s[0] == '-' then s[1..] else s;
    if s[0] == '+' || s[0] == '-' {
      assert d[i - 1] == s[i];
    } else {
      assert d[i] == s[i];
    }
  }

  /** The decimal form of `n`, as Python's `str(n)` writes it. */
  function NatToString(n: nat): (s: string)
    ensures s != [] && AllDigits(s)
  {
    if n < 10 then [('0' as int + n) as char]
    else NatToString(n / 10) + [('0' as int + n % 10) as char]
  }

  lemma {:induction false} DigitsOfNat(n: nat)
    ensures DigitsValue(NatToString(n)) == n
  {
    var s := NatToString(n);
    if n >= 10 {
      DigitsOfNat(n / 10);
      assert s[..|s| - 1] == NatToString(n / 10);
    } else {
      assert s[..|s| - 1] == [];
    }
  }

  /** `int(str(n)) == n`: a size written in decimal is read back as itself. */
  lemma ParseIntRoundTrip(n: nat)
    ensures ParseInt(NatToString(n)) == Some(n)
  {
    DigitsOfNat(n);
  }

  // ---------------------------------------------------------------------
  // Validation
  // ---------------------------------------------------------------------

  /**
    `_validate_download`: empty metadata is InvalidMetadata; the first value
    must read as an integer equal to the file size, checked before the
    digest; the second value must equal the SHA-1 hex digest exactly.
   */
  function ValidateDownload(metadata: seq<string>, fileSize: nat, sha1: string): (r: Result<()>)
    ensures r.Ok? <==> |metadata| >= 2 && ParseInt(metadata[0]) == Some(fileSize) && metadata[1] == sha1
    ensures metadata == [] ==> r == Err(InvalidMetadata)
    ensures metadata != [] && ParseInt(metadata[0]).None? ==> r == Err(NotAnInteger(metadata[0]))
    ensures metadata != [] && ParseInt(metadata[0]).Some? && ParseInt(metadata[0]).value != fileSize ==>
              r == Err(SizeMismatch(ParseInt(metadata[0]).value, fileSize))
    ensures r.Err? ==> !IsMetaFetch(r.error)
  {
    if |metadata| == 0 then Err(InvalidMetadata)
    else match ParseInt(metadata[0])
      case None => Err(NotAnInteger(metadata[0]))
      case Some(size) =>
        if size != fileSize then Err(SizeMismatch(size, fileSize))
        else if |metadata| < 2 then Err(MissingSha1)
        else if metadata[1] != sha1 then Err(Sha1Mismatch(metadata[1], sha1))
        else Ok(())
  }

  /** How the validation step of `install` and `upgrade` ended when it did not raise. */
  datatype Verdict = Passed | Skipped(reason: Error)

  /**
    The validation step of `install` and `upgrade`: a MetaFetchException from
    fetching the metadata is caught and validation is skipped; every other
    failure is raised.
   */
  function CheckDownload(document: Option<seq<string>>, fileName: string, fileSize: nat, sha1: string): (r: Result<Verdict>)
    ensures r == Ok(Passed) <==>
      FetchMetadata(document, fileName).Ok? &&
      ValidateDownload(FetchMetadata(document, fileName).value, fileSize, sha1).Ok?
    ensures (r.Ok? && r.value.Skipped?) <==> FetchMetadata(document, fileName).Err?
    ensures r.Err? ==> !IsMetaFetch(r.error)
  {
    match FetchMetadata(document, fileName)
    case Err(e) => Ok(Skipped(e))
    case Ok(metadata) =>
      match ValidateDownload(metadata, fileSize, sha1)
      case Err(e) => Err(e)
      case Ok(_) => Ok(Passed)
  }

  /** A validation that passed saw the file's own size and digest in the metadata. */
  lemma PassedMeansMatch(document: Option<seq<string>>, fileName: string, fileSize: nat, sha1: string)
    requires CheckDownload(document, fileName, fileSize, sha1) == Ok(Passed)
    ensures document.Some?
    ensures var v := Expected(document.value, fileName);
      |v| >= 2 && ParseInt(v[0]) == Some(fileSize) && v[1] == sha1
  {
  }
}

=== FILE: oshelper.dfy ===
/**
  `OSHelper.get_temp`, which builds paths under the helper's scratch
  directory, and the part of the file system the download touches: a map
  from path to contents.
 */
module OsHelper {
  import opened Errors
  import opened Text

  /** The default `base_dir` of `get_temp`. */
  const ScratchName: string := "v2rayHelper"

  /**
    `get_temp(base_dir, path, file)` with `tempfile.gettempdir()` given as
    `tempDir`: backslashes become slashes, the four parts are joined with
    slashes, and one left-to-right pass turns each "//" into "/".
   */
  function GetTemp(tempDir: string, baseDir: string, path: Option<seq<string>>, file: string): (r: string)
    ensures |r| <= |Formatted(tempDir, baseDir, path, file)|
  {
    ReplaceAll(Formatted(tempDir, baseDir, path, file), "//", "/")
  }

  /** The string `get_temp` builds before the "//" pass. */
  function Formatted(tempDir: string, baseDir: string, path: Option<seq<string>>, file: string): string {
    var fullPath := if path.Some? then Join(path.value, "/") else "";
    ReplaceAll(tempDir, "\\", "/") + "/" + baseDir + "/" + fullPath + "/" + file
  }

  predicate SlashPairAt(s: string, k: int) {
    0 <= k && k + 1 < |s| && s[k] == '/' && s[k + 1] == '/'
  }

  lemma OccursSlashPair(s: string, k: int)
    ensures Occurs(s, "//", k) <==> SlashPairAt(s, k)
  {
    if SlashPairAt(s, k) {
      assert s[k..k + 2] == "//";
    }
  }

  lemma OccursSlashTriple(s: string)
    ensures |s| >= 3 && s[0] == '/' && s[1] == '/' && s[2] == '/' ==> Contains(s, "///")
  {
    if |s| >= 3 && s[0] == '/' && s[1] == '/' && s[2] == '/' {
      assert s[0..3] == "///";
      assert Occurs(s, "///", 0);
    }
  }

  /** The test the "//" pass makes at the front of a string. */
  lemma SlashPairFront(s: string)
    requires |s| >= 2
    ensures (s[..2] == "//") <==> (s[0] == '/' && s[1] == '/')
  {
    assert s[..2][0] == s[0] && s[..2][1] == s[1];
    if s[0] == '/' && s[1] == '/' {
      assert s[..2] == "//";
    }
  }

  /** A suffix of a string without "///" has none either. */
  lemma NoTripleSuffix(s: string, d: nat)
    requires d <= |s| && !Contains(s, "///")
    ensures !Contains(s[d..], "///")
  {
    var tail := s[d..];
    forall k | Occurs(tail, "///", k) ensures Occurs(s, "///", k + d) {
      assert tail[k..k + 3] == s[k + d..k + d + 3];
    }
  }

  /** Putting one character that is not a slash pair's start in front of a string without "//". */
  lemma NoPairAfterHead(head: string, rt: string)
    requires |head| == 1 && !Contains(rt, "//")
    requires head[0] == '/' ==> rt == [] || rt[0] != '/'
    ensures !Contains(head + rt, "//")
  {
    var r := head + rt;
    forall k ensures !Occurs(r, "//", k) {
      OccursSlashPair(r, k);
      if k >= 1 {
        OccursSlashPair(rt, k - 1);
        assert !Occurs(rt, "//", k - 1);
      }
    }
  }

  /**
    The "//" pass leaves no "//" behind when the string has no "///"; it keeps
    a leading slash and adds none.
   */
  lemma {:induction false} CollapseSlashes(s: string)
    requires !Contains(s, "///")
    ensures !Contains(ReplaceAll(s, "//", "/"), "//")
    ensures var r := ReplaceAll(s, "//", "/"); (r != [] && r[0] == '/') <==> (s != [] && s[0] == '/')
    decreases |s|
  {
    var r := ReplaceAll(s, "//", "/");
    if |s| < 2 {
      forall k ensures !Occurs(r, "//", k) { OccursSlashPair(r, k); }
    } else {
      var pair := s[..2] == "//";
      var tail := if pair then s[2..] else s[1..];
      NoTripleSuffix(s, if pair then 2 else 1);
      CollapseSlashes(tail);
      var rt := ReplaceAll(tail, "//", "/");
      var head := if pair then "/" else [s[0]];
      assert r == head + rt;
      SlashPairFront(s);
      OccursSlashTriple(s);
      NoPairAfterHead(head, rt);
    }
  }

  /** A path built from a scratch directory and names without stray slashes has no "//". */
  lemma GetTempNoDoubleSlash(tempDir: string, baseDir: string, path: Option<seq<string>>, file: string)
    requires !Contains(Formatted(tempDir, baseDir, path, file), "///")
    ensures !Contains(GetTemp(tempDir, baseDir, path, file), "//")
  {
    CollapseSlashes(Formatted(tempDir, baseDir, path, file));
  }

  /** The "//" pass works on the two sides of a boundary separately when no slash precedes it. */
  lemma {:induction false} CollapseConcat(x: string, y: string)
    requires x == [] || x[|x| - 1] != '/'
    ensures ReplaceAll(x + y, "//", "/") == ReplaceAll(x, "//", "/") + ReplaceAll(y, "//", "/")
    decreases |x|, 1
  {
    var s := x + y;
    if x == [] {
      assert s == y;
    } else if |s| < 2 {
      assert s == x && y == [];
    } else {
      SlashPairFront(s);
      if s[..2] == "//" {
        CollapseConcatPair(x, y);
      } else {
        CollapseConcatChar(x, y);
      }
    }
  }

  /** `CollapseConcat` when the string starts with "//", which lies inside `x`. */
  lemma {:induction false} CollapseConcatPair(x: string, y: string)
    requires x != [] && x[|x| - 1] != '/'
    requires |x + y| >= 2 && (x + y)[0] == '/' && (x + y)[1] == '/'
    ensures ReplaceAll(x + y, "//", "/") == ReplaceAll(x, "//", "/") + ReplaceAll(y, "//", "/")
    decreases |x|, 0
  {
    var s := x + y;
    assert |x| >= 2;
    SlashPairFront(s);
    SlashPairFront(x);
    assert s[2..] == x[2..] + y;
    CollapseConcat(x[2..], y);
  }

  /** `CollapseConcat` when the string does not start with "//". */
  lemma {:induction false} CollapseConcatChar(x: string, y: string)
    requires x != [] && x[|x| - 1] != '/'
    requires |x + y| >= 2 && !((x + y)[0] == '/' && (x + y)[1] == '/')
    ensures ReplaceAll(x + y, "//", "/") == ReplaceAll(x, "//", "/") + ReplaceAll(y, "//", "/")
    decreases |x|, 0
  {
    var s := x + y;
    SlashPairFront(s);
    if |x| >= 2 {
      SlashPairFront(x);
    }
    assert s[1..] == x[1..] + y;
    CollapseConcat(x[1..], y);
  }

  /** A string without slashes has no "//", so the pass leaves it alone. */
  lemma CollapseNoSlash(s: string)
    requires '/' !in s
    ensures ReplaceAll(s, "//", "/") == s
  {
    forall k | Occurs(s, "//", k) ensures false {
      OccursSlashPair(s, k);
    }
    ReplaceAbsent(s, "//", "/");
  }

  /** "//" at the front of a string becomes "/". */
  lemma CollapseFront(s: string)
    ensures ReplaceAll("//" + s, "//", "/") == "/" + ReplaceAll(s, "//", "/")
  {
    var t := "//" + s;
    assert t[..2] == "//" && t[2..] == s;
  }

  /** A slash followed by a name without slashes has no "//". */
  lemma CollapseDir(name: string)
    requires '/' !in name
    ensures ReplaceAll("/" + name, "//", "/") == "/" + name
  {
    var dir := "/" + name;
    forall k | Occurs(dir, "//", k) ensures false {
      OccursSlashPair(dir, k);
    }
    ReplaceAbsent(dir, "//", "/");
  }

  /**
    For a scratch directory without "//", backslash or trailing slash, and
    directory and file names without slashes, `get_temp(base_dir, file=name)`
    is the three joined by single slashes.
   */
  lemma {:induction false} GetTempFile(tempDir: string, baseDir: string, file: string)
    requires !Contains(tempDir, "\\") && !Contains(tempDir, "//")
    requires tempDir == [] || tempDir[|tempDir| - 1] != '/'
    requires '/' !in baseDir && '/' !in file && baseDir != []
    ensures GetTemp(tempDir, baseDir, None, file) == tempDir + "/" + baseDir + "/" + file
  {
    ReplaceAbsent(tempDir, "\\", "/");
    ReplaceAbsent(tempDir, "//", "/");
    var formatted := tempDir + "/" + baseDir + "/" + "" + "/" + file;
    assert formatted == Formatted(tempDir, baseDir, None, file);
    var dir, rest := "/" + baseDir, "//" + file;
    assert formatted == tempDir + (dir + rest);
    calc {
      ReplaceAll(formatted, "//", "/");
      { CollapseConcat(tempDir, dir + rest); }
      tempDir + ReplaceAll(dir + rest, "//", "/");
      { assert dir[|dir| - 1] == baseDir[|baseDir| - 1];
        CollapseConcat(dir, rest); CollapseDir(baseDir); }
      tempDir + (dir + ReplaceAll(rest, "//", "/"));
      { CollapseFront(file); CollapseNoSlash(file); }
      tempDir + (dir + ("/" + file));
    }
  }

  /** The contents of files, by path. */
  type Bytes = seq<bv8>

  /** The files the helper writes, renames and deletes. */
  class FileStore {
    var files: map<string, Bytes>

    constructor (files: map<string, Bytes>)
      ensures this.files == files
    {
      this.files := files;
    }

    /** `OSHelper.remove_if_exists` on a file: removing an absent path is not an error. */
    method RemoveIfExists(path: string)
      modifies this
      ensures files == old(files) - {path}
    {
      files := files - {path};
    }
  }
}

=== FILE: platform.dfy ===
/**
  Platform resolution: the architecture token of the host machine
  (`V2RayAPI._get_arch`), the release asset built for the host
  (`V2RayAPI.search`), and the OS handler class chosen for the host
  (`V2rayHelper._get_all_subclasses` and `_get_os_handler`).
 */
module Platform {
  import opened Errors
  import opened Text

  /** The four keys of the `supported` table, in the table's order. */
  datatype Arch = X86 | X64 | Arm | Arm64

  const ArchKeys: seq<Arch> := [X86, X64, Arm, Arm64]

  /** The token a key stands for in asset names. */
  function ArchToken(a: Arch): string {
    match a
    case X86 => "32"
    case X64 => "64"
    case Arm => "arm"
    case Arm64 => "arm64"
  }

  /** The lower-case machine names listed under each key. */
  function Aliases(a: Arch): seq<string> {
    match a
    case X86 => ["i386"]
    case X64 => ["x86_64", "amd64"]
    case Arm => ["armv7l", "armv7", "armv7hf", "armv7hl"]
    case Arm64 => ["aarch64"]
  }

  /** No machine name is listed under two keys. */
  lemma AliasesDisjoint(a: Arch, b: Arch, m: string)
    requires m in Aliases(a) && m in Aliases(b)
    ensures a == b
  {
  }

  /** The scan over the table: the first key in `keys` whose list holds `m`. */
  function LookupArch(keys: seq<Arch>, m: string): (r: Result<Arch>)
    ensures r.Ok? <==> exists i :: 0 <= i < |keys| && m in Aliases(keys[i])
    ensures r.Ok? ==> r.value in keys && m in Aliases(r.value)
    ensures r.Err? ==> r.error == UnsupportedPlatform
  {
    if keys == [] then Err(UnsupportedPlatform)
    else if m in Aliases(keys[0]) then Ok(keys[0])
    else LookupArch(keys[1..], m)
  }

  /**
    `_get_arch`: the machine name is lower-cased and looked up in the table;
    an unknown name is UnsupportedPlatform. Because the lists are disjoint the
    answer is the one key that lists the name.
   */
  function GetArch(machine: string): (r: Result<Arch>)
    ensures forall a :: r == Ok(a) <==> Lower(machine) in Aliases(a)
    ensures r.Err? <==> forall a :: Lower(machine) !in Aliases(a)
    ensures r.Err? ==> r.error == UnsupportedPlatform
  {
    var r := LookupArch(ArchKeys, Lower(machine));
    ArchKeysComplete();
    AliasesUnique(Lower(machine));
    r
  }

  lemma AliasesUnique(m: string)
    ensures forall a, b :: m in Aliases(a) && m in Aliases(b) ==> a == b
  {
    forall a, b | m in Aliases(a) && m in Aliases(b) ensures a == b {
      AliasesDisjoint(a, b, m);
    }
  }

  lemma ArchKeysComplete()
    ensures forall a :: a in ArchKeys
  {
    forall a ensures a in ArchKeys {
      match a
      case X86 => assert ArchKeys[0] == a;
      case X64 => assert ArchKeys[1] == a;
      case Arm => assert ArchKeys[2] == a;
      case Arm64 => assert ArchKeys[3] == a;
    }
  }

  /** The name fragment `search` looks for: `<os>-<arch>.zip`. */
  function AssetPattern(osName: string, a: Arch): string {
    osName + "-" + ArchToken(a) + ".zip"
  }

  /** The index of the first name in `assets`, from index `i` on, that contains `pattern`. */
  function FirstMatch(assets: seq<string>, pattern: string, i: nat): (r: Option<nat>)
    requires i <= |assets|
    ensures r.Some? ==> i <= r.value < |assets| && Contains(assets[r.value], pattern)
    ensures r.Some? ==> forall j :: i <= j < r.value ==> !Contains(assets[j], pattern)
    ensures r.None? <==> forall j :: i <= j < |assets| ==> !Contains(assets[j], pattern)
    decreases |assets| - i
  {
    if i == |assets| then None
    else if Contains(assets[i], pattern) then Some(i)
    else FirstMatch(assets, pattern, i + 1)
  }

  /**
    What `search` returns: the empty name on darwin without looking at the
    assets; otherwise the first asset whose name contains `<os>-<arch>.zip`,
    and UnsupportedPlatform when the machine is unknown or no asset matches.
   */
  function SelectAsset(osName: string, machine: string, assets: seq<string>): (r: Result<string>)
    ensures osName == "darwin" ==> r == Ok("")
    ensures osName != "darwin" && GetArch(machine).Err? ==> r == Err(UnsupportedPlatform)
    ensures osName != "darwin" && GetArch(machine).Ok? ==>
      var pattern := AssetPattern(osName, GetArch(machine).value);
      && (r.Ok? <==> exists i :: 0 <= i < |assets| && Contains(assets[i], pattern))
      && (r.Ok? ==> (exists i :: 0 <= i < |assets| && r.value == assets[i] && Contains(assets[i], pattern) &&
                               (forall j :: 0 <= j < i ==> !Contains(assets[j], pattern))))
      && (r.Err? ==> r.error == UnsupportedPlatform)
  {
    if osName == "darwin" then Ok("")
    else match GetArch(machine)
      case Err(e) => Err(e)
      case Ok(a) =>
        match FirstMatch(assets, AssetPattern(osName, a), 0)
        case None => Err(UnsupportedPlatform)
        case Some(i) => Ok(assets[i])
  }

  /** `search` as the source writes it: a loop over the assets with an early return. */
  method Search(osName: string, machine: string, assets: seq<string>) returns (r: Result<string>)
    ensures r == SelectAsset(osName, machine, assets)
  {
    if osName == "darwin" {
      return Ok("");
    }
    var arch := GetArch(machine);
    if arch.Err? {
      return Err(UnsupportedPlatform);
    }
    var pattern := AssetPattern(osName, arch.value);
    var i := 0;
    while i < |assets|
      invariant 0 <= i <= |assets|
      invariant FirstMatch(assets, pattern, i) == FirstMatch(assets, pattern, 0)
    {
      if FindFrom(assets[i], pattern, 0) != -1 {
        return Ok(assets[i]);
      }
      i := i + 1;
    }
    return Err(UnsupportedPlatform);
  }

  // ---------------------------------------------------------------------
  // The OS handler classes
  // ---------------------------------------------------------------------

  /** The concrete handler classes. */
  datatype Kind = Linux | MacOS | FreeBSD | OpenBSD | Windows

  /** Each concrete class's `_target_os()`. */
  function TargetOs(k: Kind): (r: seq<string>)
    ensures |r| == 1 && r[0] != []
    ensures forall i :: 0 <= i < |r[0]| ==> 'a' <= r[0][i] <= 'z'
  {
    match k
    case Linux => ["linux"]
    case MacOS => ["darwin"]
    case FreeBSD => ["freebsd"]
    case OpenBSD => ["openbsd"]
    case Windows => ["windows"]
  }

  /** Every target is its own lower-case form, so the lowered system name can match it. */
  lemma TargetsLowered(k: Kind)
    ensures Lower(TargetOs(k)[0]) == TargetOs(k)[0]
  {
    var t := TargetOs(k)[0];
    assert forall i :: 0 <= i < |t| ==> Lower(t)[i] == t[i];
  }

  /**
    A class of the handler hierarchy with its direct subclasses in the order
    Python's `__subclasses__()` lists them, which is the order of definition.
   */
  datatype HandlerClass =
    | Abstract(name: string, subclasses: seq<HandlerClass>)
    | Concrete(kind: Kind, subclasses: seq<HandlerClass>)

  /**
    OSHandler with UnixLikeHandler and WindowsHandler below it, LinuxHandler,
    MacOSHandler and BSDHandler below UnixLikeHandler, and FreeBSDHandler and
    OpenBSDHandler below BSDHandler.
   */
  const OSHandlerClass: HandlerClass :=
    Abstract("OSHandler", [
      Abstract("UnixLikeHandler", [
        Concrete(Linux, []),
        Concrete(MacOS, []),
        Abstract("BSDHandler", [Concrete(FreeBSD, []), Concrete(OpenBSD, [])])
      ]),
      Concrete(Windows, [])
    ])

  /**
    `_get_all_subclasses` over a list of subclasses: each one, unless it is
    abstract, followed by everything below it, depth first.
   */
  function Walk(subs: seq<HandlerClass>): (r: seq<Kind>)
    decreases subs
    ensures subs != [] && subs[0].Concrete? ==> r != [] && r[0] == subs[0].kind
    ensures (forall i :: 0 <= i < |subs| ==> subs[i].Abstract? && subs[i].subclasses == []) ==> r == []
  {
    if subs == [] then []
    else
      (if subs[0].Concrete? then [subs[0].kind] else []) +
      Walk(subs[0].subclasses) + Walk(subs[1..])
  }

  function AllSubclasses(c: HandlerClass): seq<Kind> {
    Walk(c.subclasses)
  }

  /** The kinds of the concrete classes at or below any class of `subs`. */
  ghost predicate Below(subs: seq<HandlerClass>, k: Kind) {
    exists i :: 0 <= i < |subs| && ((subs[i].Concrete? && subs[i].kind == k) || Below(subs[i].subclasses, k))
  }

  /** A kind is below a list when it is at or below its first class, or below the rest. */
  lemma BelowCons(subs: seq<HandlerClass>, k: Kind)
    requires subs != []
    ensures Below(subs, k) <==>
      (subs[0].Concrete? && subs[0].kind == k) || Below(subs[0].subclasses, k) || Below(subs[1..], k)
  {
    if Below(subs[1..], k) {
      var i :| 0 <= i < |subs[1..]| &&
        ((subs[1..][i].Concrete? && subs[1..][i].kind == k) || Below(subs[1..][i].subclasses, k));
      assert subs[i + 1] == subs[1..][i];
    }
    if Below(subs, k) {
      var i :| 0 <= i < |subs| && ((subs[i].Concrete? && subs[i].kind == k) || Below(subs[i].subclasses, k));
      if i > 0 {
        assert subs[1..][i - 1] == subs[i];
      }
    }
  }

  /** The walk lists exactly the concrete classes of the hierarchy. */
  lemma {:induction false} WalkComplete(subs: seq<HandlerClass>, k: Kind)
    decreases subs
    ensures k in Walk(subs) <==> Below(subs, k)
  {
    if subs != [] {
      WalkComplete(subs[0].subclasses, k);
      WalkComplete(subs[1..], k);
      BelowCons(subs, k);
    }
  }

  /** The order in which `_get_os_handler` tries the handlers. */
  lemma HandlerOrder()
    ensures AllSubclasses(OSHandlerClass) == [Linux, MacOS, FreeBSD, OpenBSD, Windows]
  {
    var bsd := Abstract("BSDHandler", [Concrete(FreeBSD, []), Concrete(OpenBSD, [])]);
    assert Walk(bsd.subclasses) == [FreeBSD, OpenBSD];
    var unix := Abstract("UnixLikeHandler", [Concrete(Linux, []), Concrete(MacOS, []), bsd]);
    assert Walk(unix.subclasses[2..]) == [FreeBSD, OpenBSD];
    assert Walk(unix.subclasses[1..]) == [MacOS, FreeBSD, OpenBSD];
    assert Walk(unix.subclasses) == [Linux, MacOS, FreeBSD, OpenBSD];
    assert Walk(OSHandlerClass.subclasses[1..]) == [Windows];
  }

  lemma EveryKindListed()
    ensures forall k :: k in AllSubclasses(OSHandlerClass)
  {
    HandlerOrder();
    var order := AllSubclasses(OSHandlerClass);
    forall k ensures k in order {
      match k
      case Linux => assert order[0] == k;
      case MacOS => assert order[1] == k;
      case FreeBSD => assert order[2] == k;
      case OpenBSD => assert order[3] == k;
      case Windows => assert order[4] == k;
    }
  }

  /** The first kind in `kinds` whose `_target_os()` lists `osName`. */
  function FirstHandler(kinds: seq<Kind>, osName: string): (r: Result<Kind>)
    ensures r.Ok? ==> r.value in kinds && osName in TargetOs(r.value)
    ensures r.Err? <==> forall k :: k in kinds ==> osName !in TargetOs(k)
    ensures r.Err? ==> r.error == UnsupportedPlatform
  {
    if kinds == [] then Err(UnsupportedPlatform)
    else if osName in TargetOs(kinds[0]) then Ok(kinds[0])
    else FirstHandler(kinds[1..], osName)
  }

  /** No OS name is the target of two handler classes. */
  lemma TargetsDisjoint(a: Kind, b: Kind, osName: string)
    requires osName in TargetOs(a) && osName in TargetOs(b)
    ensures a == b
  {
  }

  lemma FirstHandlerIsOnlyHandler(osName: string)
    ensures forall k :: FirstHandler(AllSubclasses(OSHandlerClass), osName) == Ok(k) <==> osName in TargetOs(k)
  {
    var r := FirstHandler(AllSubclasses(OSHandlerClass), osName);
    forall k ensures r == Ok(k) <==> osName in TargetOs(k) {
      if osName in TargetOs(k) {
        EveryKindListed();
        assert r.Ok?;
        TargetsDisjoint(r.value, k, osName);
      }
    }
  }

  /**
    The handler class `_get_os_handler` returns: the one whose target list
    holds the OS name (the lists are disjoint); any other name is
    UnsupportedPlatform.
   */
  function HandlerFor(osName: string): (r: Result<Kind>)
    ensures forall k :: r == Ok(k) <==> osName in TargetOs(k)
    ensures r.Err? ==> r.error == UnsupportedPlatform
  {
    var r := FirstHandler(AllSubclasses(OSHandlerClass), osName);
    FirstHandlerIsOnlyHandler(osName);
    r
  }

  /** `_get_os_handler` as the source writes it: a loop over the walked classes. */
  method GetOsHandler(osName: string) returns (r: Result<Kind>)
    ensures r == HandlerFor(osName)
  {
    var classes := AllSubclasses(OSHandlerClass);
    HandlerOrder();
    var i := 0;
    while i < |classes|
      invariant 0 <= i <= |classes|
      invariant forall j :: 0 <= j < i ==> osName !in TargetOs(classes[j])
    {
      if osName in TargetOs(classes[i]) {
        return Ok(classes[i]);
      }
      i := i + 1;
    }
    return Err(UnsupportedPlatform);
  }
}

=== FILE: text.dfy ===
/**
  The few Python string operations the helper relies on, with Python's
  semantics: `str.find`, `str.split()` with no argument, `str.replace`,
  `str.lower` and `str.join`.
 */
module Text {

  /** Python's `str.isspace` for one character: the separators `str.split()` splits on. */
  predicate IsSpace(c: char) {
    var k := c as int;
    k == 0x20 || 0x09 <= k <= 0x0D || 0x1C <= k <= 0x1F || k == 0x85 || k == 0xA0 ||
    k == 0x1680 || 0x2000 <= k <= 0x200A || k == 0x2028 || k == 0x2029 ||
    k == 0x202F || k == 0x205F || k == 0x3000
  }

  predicate NoSpace(t: string) {
    forall i :: 0 <= i < |t| ==> !IsSpace(t[i])
  }

  /** `sub` occurs in `s` at index `k`. */
  predicate Occurs(s: string, sub: string, k: int) {
    0 <= k && k + |sub| <= |s| && s[k..k + |sub|] == sub
  }

  /** Python's `s.find(sub, i)`: the lowest index from `i` on where `sub` occurs, or -1. */
  function FindFrom(s: string, sub: string, i: nat): (r: int)
    requires i <= |s|
    decreases |s| - i
    ensures r == -1 || (i <= r && Occurs(s, sub, r))
    ensures r == -1 <==> forall k :: i <= k ==> !Occurs(s, sub, k)
    ensures r != -1 ==> forall k :: i <= k < r ==> !Occurs(s, sub, k)
  {
    if i + |sub| > |s| then -1
    else if s[i..i + |sub|] == sub then i
    else FindFrom(s, sub, i + 1)
  }

  /** Python's `sub in s`, written in the helper as `s.find(sub) != -1`. */
  function Contains(s: string, sub: string): (b: bool)
    ensures b <==> exists k :: Occurs(s, sub, k)
  {
    FindFrom(s, sub, 0) != -1
  }

  /** A string contains each of its middle parts. */
  lemma ContainsInfix(a: string, b: string, c: string)
    ensures Contains(a + b + c, b)
  {
    assert (a + b + c)[|a|..|a| + |b|] == b;
    assert Occurs(a + b + c, b, |a|);
  }

  function LowerChar(c: char): char {
    if 'A' <= c <= 'Z' then (c as int + 32) as char else c
  }

  /**
    Python's `str.lower`, for ASCII letters. No other character lowers to a
    single ASCII letter except the Kelvin sign, which lowers to 'k'.
   */
  function Lower(s: string): (r: string)
    ensures |r| == |s|
    ensures forall i :: 0 <= i < |s| ==> !('A' <= r[i] <= 'Z')
    ensures forall i :: 0 <= i < |s| ==> r[i] == if 'A' <= s[i] <= 'Z' then (s[i] as int + 32) as char else s[i]
  {
    seq(|s|, i requires 0 <= i < |s| => LowerChar(s[i]))
  }

  /** The length of the run of non-space characters at the start of `s`. */
  function WordLen(s: string): (n: nat)
    ensures n <= |s|
    ensures forall i :: 0 <= i < n ==> !IsSpace(s[i])
    ensures n < |s| ==> IsSpace(s[n])
  {
    if s == [] || IsSpace(s[0]) then 0 else 1 + WordLen(s[1..])
  }

  /** Python's `s.split()`: the maximal runs of non-space characters, in order. */
  function Split(s: string): (ts: seq<string>)
    decreases |s|
    ensures forall i :: 0 <= i < |ts| ==> ts[i] != [] && NoSpace(ts[i])
  {
    if s == [] then []
    else if IsSpace(s[0]) then Split(s[1..])
    else
      var n := WordLen(s);
      [s[..n]] + Split(s[n..])
  }

  /** Python's `sep.join(ts)`. */
  function Join(ts: seq<string>, sep: string): (r: string)
    ensures ts == [] ==> r == []
    ensures ts != [] ==> |ts[0]| <= |r| && r[..|ts[0]|] == ts[0]
  {
    if ts == [] then []
    else if |ts| == 1 then ts[0]
    else ts[0] + sep + Join(ts[1..], sep)
  }

  lemma {:induction false} WordLenOfWord(t: string, rest: string)
    requires NoSpace(t)
    requires rest == [] || IsSpace(rest[0])
    ensures WordLen(t + rest) == |t|
  {
    if t != [] {
      assert (t + rest)[1..] == t[1..] + rest;
      WordLenOfWord(t[1..], rest);
    }
  }

  /** Splitting the tokens joined by single spaces gives the tokens back. */
  lemma {:induction false} SplitJoin(ts: seq<string>)
    requires forall i :: 0 <= i < |ts| ==> ts[i] != [] && NoSpace(ts[i])
    ensures Split(Join(ts, " ")) == ts
  {
    if ts == [] {
    } else if |ts| == 1 {
      WordLenOfWord(ts[0], []);
      assert ts[0] + [] == ts[0];
      assert ts[0][|ts[0]|..] == [];
    } else {
      var rest := " " + Join(ts[1..], " ");
      var s := ts[0] + rest;
      assert s == Join(ts, " ");
      WordLenOfWord(ts[0], rest);
      assert s[..|ts[0]|] == ts[0];
      assert s[|ts[0]|..] == rest;
      assert rest[1..] == Join(ts[1..], " ");
      SplitJoin(ts[1..]);
      assert Split(rest) == Split(Join(ts[1..], " "));
    }
  }

  /**
    The text with every run of whitespace between two words written as one
    space and the whitespace at both ends dropped, read one character at a
    time: `pending` says a run of whitespace follows a word, `started` that a
    word has been written.
   */
  function SqueezeFrom(s: string, pending: bool, started: bool): string
    decreases |s|
  {
    if s == [] then []
    else if IsSpace(s[0]) then SqueezeFrom(s[1..], started, started)
    else (if pending then " " else "") + [s[0]] + SqueezeFrom(s[1..], false, true)
  }

  function Squeeze(s: string): string {
    SqueezeFrom(s, false, false)
  }

  /** Inside a word, the characters of the word are written as they are. */
  lemma {:induction false} SqueezeWord(w: string, rest: string)
    requires NoSpace(w)
    ensures SqueezeFrom(w + rest, false, true) == w + SqueezeFrom(rest, false, true)
  {
    if w == [] {
      assert w + rest == rest;
    } else {
      assert !IsSpace(w[0]);
      assert (w + rest)[0] == w[0] && (w + rest)[1..] == w[1..] + rest;
      SqueezeWord(w[1..], rest);
      assert w == [w[0]] + w[1..];
    }
  }

  /** After whitespace that follows a word, the rest is written behind one space, if it has a word. */
  lemma {:induction false} SqueezePending(s: string)
    ensures SqueezeFrom(s, true, true) == if Squeeze(s) == [] then [] else " " + Squeeze(s)
  {
    if s != [] && IsSpace(s[0]) {
      SqueezePending(s[1..]);
    }
  }

  /**
    `str.split()` and the whitespace-collapsed text agree: joining the tokens
    with single spaces gives exactly the text with its whitespace runs
    collapsed and its ends trimmed.
   */
  lemma {:induction false} JoinSplit(s: string)
    ensures Join(Split(s), " ") == Squeeze(s)
    decreases |s|
  {
    if s != [] {
      if IsSpace(s[0]) {
        JoinSplit(s[1..]);
      } else {
        var n := WordLen(s);
        var w, rest := s[..n], s[n..];
        assert s == w + rest;
        SqueezeAfterWord(w, rest);
        assert Split(s) == [w] + Split(rest);
        if rest != [] {
          JoinSplit(rest[1..]);
          JoinAfterWord(w, rest);
        }
      }
    }
  }

  /** `JoinSplit` across the whitespace that ends a word, given it for the text after that whitespace's first character. */
  lemma JoinAfterWord(w: string, rest: string)
    requires rest != [] && IsSpace(rest[0])
    requires Join(Split(rest[1..]), " ") == Squeeze(rest[1..])
    ensures Join([w] + Split(rest), " ") == w + SqueezeFrom(rest, false, true)
  {
    var tail := rest[1..];
    SqueezePending(tail);
    assert SqueezeFrom(rest, false, true) == SqueezeFrom(tail, true, true);
    assert Split(rest) == Split(tail);
    if Split(tail) != [] {
      assert ([w] + Split(tail))[1..] == Split(tail);
    }
  }

  /** A text that starts with a word is squeezed to the word and what follows it. */
  lemma SqueezeAfterWord(w: string, rest: string)
    requires w != [] && NoSpace(w)
    ensures Squeeze(w + rest) == w + SqueezeFrom(rest, false, true)
  {
    var s := w + rest;
    assert s[0] == w[0] && !IsSpace(s[0]);
    assert s[1..] == w[1..] + rest;
    SqueezeWord(w[1..], rest);
    assert w == [w[0]] + w[1..];
  }

  /**
    The tokens of `s` are the one list of non-empty, whitespace-free words
    whose single-space join is the collapsed text of `s`.
   */
  lemma SplitUnique(s: string, ts: seq<string>)
    requires forall i :: 0 <= i < |ts| ==> ts[i] != [] && NoSpace(ts[i])
    ensures Split(s) == ts <==> Join(ts, " ") == Squeeze(s)
  {
    JoinSplit(s);
    SplitJoin(ts);
    SplitJoin(Split(s));
  }

  /** Python's `s.replace("", n)`: `n` before every character and at the end. */
  function InsertAround(s: string, n: string): (r: string)
    ensures |r| == |s| + (|s| + 1) * |n|
  {
    if s == [] then n else n + [s[0]] + InsertAround(s[1..], n)
  }

  /**
    Python's `s.replace(o, n)`: every occurrence of `o`, scanning left to right
    without overlap, is replaced by `n`.
   */
  function ReplaceAll(s: string, o: string, n: string): (r: string)
    decreases |s|
    ensures |o| == |n| ==> |r| == |s|
    ensures o != [] && |n| <= |o| ==> |r| <= |s|
  {
    if o == [] then InsertAround(s, n)
    else if |s| < |o| then s
    else if s[..|o|] == o then n + ReplaceAll(s[|o|..], o, n)
    else [s[0]] + ReplaceAll(s[1..], o, n)
  }

  /** A string in which `o` does not occur is left as it is. */
  lemma {:induction false} ReplaceAbsent(s: string, o: string, n: string)
    requires !Contains(s, o)
    ensures ReplaceAll(s, o, n) == s
  {
    if o == [] {
      assert Occurs(s, o, 0);
    } else if |s| >= |o| {
      assert !Occurs(s, o, 0);
      forall k | Occurs(s[1..], o, k) ensures Occurs(s, o, k + 1) {
        assert s[1..][k..k + |o|] == s[k + 1..k + 1 + |o|];
      }
      ReplaceAbsent(s[1..], o, n);
    }
  }

  lemma {:induction false} InsertNothing(s: string)
    ensures InsertAround(s, "") == s
  {
    if s != [] {
      InsertNothing(s[1..]);
    }
  }

  /** Replacing a string by itself changes nothing. */
  lemma {:induction false} ReplaceSame(s: string, o: string)
    ensures ReplaceAll(s, o, o) == s
  {
    if o == [] {
      InsertNothing(s);
    } else if |s| >= |o| {
      if s[..|o|] == o {
        ReplaceSame(s[|o|..], o);
        assert s == s[..|o|] + s[|o|..];
      } else {
        ReplaceSame(s[1..], o);
        assert s == [s[0]] + s[1..];
      }
    }
  }
}
